=== FILE: README.md ===
# Trend-to-Shorts assistant: the extraction and selection core in Dafny

The application asks a language model for trending people, trending topics and
YouTube Shorts assets (titles, a description, tags), then lets a visitor walk
through three web pages: the index form, the topic list and the result page,
with an upload page after that. This project models the deterministic part of
that flow:

- `text.dfy` (module `Text`): the Python `str` operations the code relies on,
  over `seq<char>`. These are `strip`, `split`, `splitlines`, `join`, `upper`,
  `isdigit`, `startswith`, `int(...)` and `x or default`.
- `llm_helper.dfy` (module `LlmHelper`): the parsing halves of
  `generate_trending_people`, `generate_trending_topics` and
  `generate_youtube_assets`.
  - The numbered-list extractor shared by people and topics.
  - The section state machine over `TITLES` / `DESCRIPTION` / `TAGS` lines.
  - The fallback lists and strings.
  - Each loop is a `method` proved equal to a specification function. The
    properties are lemmas about those functions. Round trips show that a
    well-formed reply is read back exactly.
- `app.dfy` (module `App`): the route handlers of the web front end, as a
  class `Server` whose one field is the session.
  - Reading the index form and storing the settings.
  - The automatic person and topic picks with their fallbacks.
  - The blank-celebrity check.
  - The clamped topic index.
  - The tag-string split of the upload form.
  - Every session write.

Modelling decisions:

- **Language-model replies.** Each call to the completion client becomes a
  `Completion` parameter: `Reply(text)` or `Failed(message)`, the latter for
  the exception the route catches. The upload call is handled the same way,
  with `Reply(url)` for the video address.
- **Randomness.** `random.choice` is `Choose`: a nondeterministic choice of
  some member of a non-empty list, and nothing more.
- **The session.** It is a `map<Key, Value>`. `Key` enumerates the nine keys
  the program uses, and a `Value` is a string or a list of strings. This
  program only ever stores strings under the string keys and lists under the
  list keys. A value of the other kind is therefore read as missing.
- **Requests.** The request form is a `map<string, string>`. A posted video
  is `Option<string>`, holding its file name.
- **Responses.** A response is a redirect, or the page together with the
  values handed to its template.
- **Text semantics.** `int()` and `str()` refuse more than 4300 digits, the default of `sys.get_int_max_str_digits()` since Python 3.11. `upper` and `isdigit` are the ASCII versions. A plain
  `strip()` removes exactly the characters for which Python's `str.isspace`
  holds. `int()` skips a smaller set of blanks around the number: the same
  characters except the information separators U+001C..U+001F, which CPython's
  integer parser rejects.
- **Line splitting.** `splitlines` is modelled as a break at each of Python's
  line-boundary characters on its own. So `"\r\n"` and a final line break
  give extra blank pieces. Every consumer skips blank lines, so the lines
  that matter are Python's.

## Model

| member | source | states |
|---|---|---|
| Text.StripPadded | llm_helper.py:56 | `strip` removes exactly a padding of the given characters: a trimmed text with such padding on either side comes back unchanged |
| Text.StripEmptyIff | llm_helper.py:50 | a line strips to the empty string exactly when all of its characters are whitespace, so the filter drops exactly the blank lines |
| Text.StripTrimmed | llm_helper.py:185 | stripping an already-trimmed text changes nothing (`strip` is idempotent) |
| Text.SplitJoin | llm_helper.py:208 | splitting a join of separator-free pieces gives the pieces back |
| Text.ContentLinesOfJoin | llm_helper.py:50 | text made of trimmed, non-blank lines joined by line breaks yields exactly those lines as its content lines |
| Text.NonBlankKeeps | app.py:162 | already trimmed, non-empty tokens pass through the strip-and-drop-empty comprehension unchanged |
| Text.Strip | llm_helper.py:50 | Python's `strip`: the result neither starts nor ends with a stripped character and is no longer than the input |
| Text.SplitOn | llm_helper.py:184 | `split` / `splitlines` over a set of one-character separators: at least one piece, and no piece holds a separator |
| Text.NonBlank | app.py:162 | the strip-and-drop-blank comprehension: no more pieces than given, each non-empty and trimmed |
| Text.NonBlankAppend | app.py:162 | the comprehension works piece by piece and keeps their order: over `a + b` it gives its result over `a` followed by its result over `b` |
| Text.NonBlankOne | app.py:162 | a single piece is dropped exactly when it is blank, and otherwise kept in stripped form |
| Text.NonBlankEmptyIff | app.py:162 | the comprehension yields nothing exactly when every piece is blank |
| Text.SplitOnSeparator | llm_helper.py:208 | a separator anywhere in the string cuts it in two: the pieces of the part before it, then the pieces of the part after it |
| Text.SplitOnWithin | llm_helper.py:208 | every piece is made of characters of a set exactly when the whole string is made of those characters and separators |
| Text.NonBlankSplitEmptyIff | app.py:162 | splitting and dropping blank pieces yields nothing exactly when the string holds only blanks and separators |
| Text.ContentLines | llm_helper.py:50 | the stripped non-blank lines of a reply: each is non-empty and trimmed |
| Text.ContentLinesAtBreak | llm_helper.py:50 | a line break cuts the reply in two: the content lines before it, in order, then those after it |
| Text.ContentLinesOfLine | llm_helper.py:50 | a text without a line break gives one content line, its stripped form, unless it is blank, in which case it gives none |
| Text.ContentLinesEmptyIff | llm_helper.py:50 | a reply has no content line exactly when it is made only of blanks and line breaks |
| Text.JoinWith | llm_helper.py:210 | `"\n".join`: the parts in order with one separator between neighbours; its length is the parts' total length plus one separator per gap, and it starts with the first part (SplitJoin is its inverse) |
| Text.AfterFirst | llm_helper.py:55 | `s.split(c, 1)[1]`: the text after the first occurrence of `c`, a proper suffix preceded by `c`, with no `c` before that occurrence |
| Text.Take | llm_helper.py:60 | the `[:5]` slice: a prefix of the list, all of a list of at most `n` items and exactly `n` items of a longer one |
| Text.Upper | llm_helper.py:188 | `upper()`: same length, each character mapped by the ASCII upper-case map |
| Text.StartsWithSlice | llm_helper.py:189-195 | `startswith` holds exactly when the prefix is no longer than the string and equals its first characters |
| Text.OrElse | app.py:27-30 | the `x or default` idiom on strings: the default exactly when the string is empty, never empty when the default is not |
| Text.ParseInt | app.py:99-102 | Python's `int()` on a string: a value only when the blank-stripped text is non-empty, negative only with a leading `-`; `None` where `int()` raises `ValueError`, including for more than 4300 digits |
| Text.ParseIntAfterSeparator | app.py:99-102 | any text that starts with an information separator (U+001C..U+001F) does not parse, although that character is one `strip()` removes |
| Text.StripSeparatorNumber | app.py:99-102 | an information separator followed by any trimmed text: `strip()` gives the text back, while `int()` refuses the whole |
| Text.ParseIntTooLong | app.py:99-102 | a decimal literal with more than 4300 digits, leading zeros counted and underscores not, does not parse |
| Text.ParseIntOfDecimal | app.py:100 | `int(str(n)) == n` for every natural number `n` whose decimal form has at most 4300 digits (beyond that `str(n)` itself raises) |
| LlmHelper.NumberedEntry | llm_helper.py:54-57 | a line yields an entry iff it contains `)` and the text after its first `)` is not made only of space, `-`, en dash and `:`; the entry is non-empty and trimmed of those characters |
| LlmHelper.Numbered | llm_helper.py:52-58 | the entries of a list of lines: one at most per line |
| LlmHelper.NumberedTrimmed | llm_helper.py:53-58 | every extracted entry is non-empty and trimmed of space, `-`, en dash and `:` |
| LlmHelper.NumberedAppend | llm_helper.py:53-58 | entries keep input order: the entries of two line blocks in a row are those of the first followed by those of the second |
| LlmHelper.NumberedEntryAtFirstParen | llm_helper.py:55-57 | the entry is taken after the FIRST `)`: for a number without `)` the entry is the stripped rest, or none when the rest strips to empty |
| LlmHelper.NumberedEntryUnpadded | llm_helper.py:56 | padding of space, `-`, en dash and `:` around an entry is removed on both sides and nothing else |
| LlmHelper.NumberedWithoutParen | llm_helper.py:53-58 | a reply without any `)` yields no entries |
| LlmHelper.NumberedRoundTrip | llm_helper.py:50-58 | a reply listing entries as `1) e1`, `2) e2`, … yields exactly those entries back |
| LlmHelper.NumberedEntries | llm_helper.py:52-58 | the extraction loop appends exactly the entries of the lines, in order |
| LlmHelper.TrendingPeople | llm_helper.py:50-60 | at most 5 people, each non-empty and trimmed; no fallback, so the list may be empty |
| LlmHelper.PeopleOfList | llm_helper.py:50-60 | a numbered list of people is read back as its first 5 names |
| LlmHelper.GenerateTrendingPeople | llm_helper.py:49-60 | the people parse computed line by line equals `TrendingPeople` of the reply |
| LlmHelper.TopicFallback | llm_helper.py:112-120 | five non-empty templated topics, each naming the celebrity; the second names `niche or 'their niche'`, the fifth `niche or 'their field'` |
| LlmHelper.TrendingTopics | llm_helper.py:101-122 | between 1 and 5 non-empty topics: the first 5 extracted entries, or the whole fallback exactly when nothing was extracted |
| LlmHelper.TopicsOfList | llm_helper.py:101-111 | a non-empty numbered list of topics is read back as its first 5 topics, without fallback |
| LlmHelper.TopicsWithoutParen | llm_helper.py:111-120 | a reply without any `)` gives exactly the fallback topics |
| LlmHelper.GenerateTrendingTopics | llm_helper.py:100-122 | the topic parse computed line by line equals `TrendingTopics` of the reply |
| LlmHelper.HeaderOf | llm_helper.py:188-197 | a header opens one of the three sections, and a line starting with a digit is never a header |
| LlmHelper.TitlesHeaderAnyCase | llm_helper.py:188-191 | any upper/lower-case spelling of TITLES at the start of a line opens the titles section, whatever follows |
| LlmHelper.DescriptionHeaderAnyCase | llm_helper.py:188-194 | any upper/lower-case spelling of DESCRIPTION at the start of a line opens the description section, whatever follows |
| LlmHelper.TagsHeaderAnyCase | llm_helper.py:188-197 | any upper/lower-case spelling of TAGS at the start of a line opens the tags section, whatever follows |
| LlmHelper.TitleOf | llm_helper.py:199-204 | a title comes only from a line starting with a digit and containing `.`; it is non-empty and stripped |
| LlmHelper.TitleAtFirstDot | llm_helper.py:200-204 | a digit-led line yields the stripped text after its FIRST `.`, or nothing when that text is blank, whatever stands before that `.` |
| LlmHelper.TagTokens | llm_helper.py:208 | the tags of a tags line are non-empty and stripped |
| LlmHelper.TagTokensAtComma | llm_helper.py:208 | a comma cuts the tags line in two: the tags before it, in order, then the tags after it; empty and blank tokens leave no trace |
| LlmHelper.TagTokensOfToken | llm_helper.py:208 | a comma-free token is one tag in stripped form, unless it is blank, in which case it gives none |
| LlmHelper.TagTokensSkipBlanks | llm_helper.py:208 | for any two clean tags `a` and `b`, the line `a,,b,` gives exactly `[a, b]`: the empty token and the trailing comma are dropped |
| LlmHelper.TagTokensOfTag | llm_helper.py:208 | a comma-free, non-empty, trimmed token is read as exactly that one tag |
| LlmHelper.TagTokensEmptyIff | llm_helper.py:208 | a tags line gives no tag, so the tag fallback applies, exactly when it holds only blanks and commas (`",,"` among them) |
| LlmHelper.StepLine | llm_helper.py:188-208 | one iteration on a stripped non-blank line: a header changes no collected part, any other line keeps the section; titles and description lines only grow, by at most one, keeping what was there |
| LlmHelper.Step | llm_helper.py:185-187 | one iteration on a raw line: a blank line changes nothing; titles and description lines only grow, by at most one |
| LlmHelper.Run | llm_helper.py:184-208 | the loop: titles and description lines collected before are kept as a prefix |
| LlmHelper.StepCollected | llm_helper.py:184-208 | one loop iteration keeps every collected title, description line and tag non-empty and stripped, and no description line is a header |
| LlmHelper.RunCollected | llm_helper.py:183-208 | the same holds after the whole loop |
| LlmHelper.RunAppend | llm_helper.py:184 | the loop over two blocks of lines is the loop over the second, started where the first left off |
| LlmHelper.HeadersOnlySwitch | llm_helper.py:188-197 | header lines and blank lines change only the current section: they never reach titles, description or tags, in whatever order they come |
| LlmHelper.BeforeFirstHeader | llm_helper.py:183-197 | lines before the first header are discarded |
| LlmHelper.NoHeaderFromStart | llm_helper.py:183-206 | a reply with no header collects nothing |
| LlmHelper.TagsLastLineWins | llm_helper.py:207-208 | in the tags section each line replaces the tag list: the tags are the tokens of the last non-blank line, possibly empty |
| LlmHelper.RunTitleLines | llm_helper.py:199-204 | in the titles section, lines `1. t1`, `2. t2`, … append exactly `t1, t2, …` in order |
| LlmHelper.RunDescriptionLines | llm_helper.py:205-206 | in the description section every clean non-header line is appended as it is, in order |
| LlmHelper.TitleFallback | llm_helper.py:213-218 | three titles, the first the chosen topic, the others naming the celebrity and the third `niche or 'facts'` |
| LlmHelper.DescriptionFallback | llm_helper.py:220-224 | a non-empty description naming the celebrity and the chosen topic and ending with `#shorts #viral #trending` |
| LlmHelper.TagFallback | llm_helper.py:226-235 | seven tags, the first the celebrity, including `niche or "celebrity"` |
| LlmHelper.ScanText | llm_helper.py:179-208 | the collected titles, description lines and tags are non-empty and stripped, and the description holds no header |
| LlmHelper.DescriptionStripIsNoOp | llm_helper.py:210 | the final `.strip()` of the joined description changes nothing, and the join is empty exactly when there are no lines |
| LlmHelper.JoinDescription | llm_helper.py:210 | the description is the lines joined by `"\n"`, and is empty exactly when there are no lines |
| LlmHelper.ScanSections | llm_helper.py:179-208 | the section loop computed line by line yields exactly the titles, description lines and tags of the specification run |
| LlmHelper.YoutubeAssets | llm_helper.py:179-240 | titles, description and tags are never empty; each is what was parsed, or its fallback exactly when nothing was parsed, so a partial parse is kept |
| LlmHelper.GenerateYoutubeAssets | llm_helper.py:177-240 | the imperative extraction with its fallbacks equals `YoutubeAssets` of the reply |
| LlmHelper.TagTokensOfLine | llm_helper.py:208 | a tags line written as `t1, t2, …` is read back as exactly those tags |
| LlmHelper.AssetsRoundTrip | llm_helper.py:179-208 | a reply in the requested `TITLES:` / `DESCRIPTION:` / `TAGS:` format is read back as exactly its titles, description lines and tags |
| LlmHelper.YoutubeAssetsOfReply | llm_helper.py:179-240 | for such a reply no fallback applies: the assets are the listed titles, the description lines joined by `"\n"` and the listed tags |
| App.FormValue | app.py:27-31 | `request.form.get(key) or ""`: the field's value, or empty when the field is missing |
| App.SessionString | app.py:115-119 | `session.get(key, default)` for a string key: the stored string, or the default when the key is missing |
| App.SessionList | app.py:89 | `session.get(key) or []` for a list key: the stored list, or empty when the key is missing |
| App.ReadIndexForm | app.py:27-31 | celebrity, niche and region are stripped; style is the form's value when present and non-empty, else "Commentary"; auto mode holds iff the box says "on" |
| App.WithSettings | app.py:33-35 | niche, style and region are stored and every other key is kept |
| App.Choose | app.py:47 | `random.choice`: the result is a member of the non-empty list |
| App.PickCelebrity | app.py:44-47 | no people gives "a trending public figure", otherwise some member of the people list; non-empty when the people are |
| App.HotTopic | app.py:63 | the fallback topic is non-empty and names the celebrity and `niche or 'their niche'` |
| App.PickTopic | app.py:60-63 | some member of the topics when there are any, otherwise the hot-topic phrase |
| App.ChosenIndex | app.py:99-105 | always a valid index: the parsed number when it lies in range, 0 when it does not parse or lies outside |
| App.ResolveChosenIndex | app.py:99-105 | the index computed by reassignment equals `ChosenIndex` |
| App.ChosenIndexOfDecimal | app.py:99-107 | the index of any listed topic, sent as its decimal string, selects that topic (for indices of at most 4300 digits, the ones `str` can write) |
| App.ChosenIndexTooLong | app.py:99-105 | a choice of more than 4300 digits, even a zero-padded small number, takes the `ValueError` path and selects the first topic |
| App.Server.constructor | app.py:15-16 | a new visitor starts with an empty session |
| App.Server.Index | app.py:24-84 | a GET shows the form and writes nothing; a POST stores the settings, then follows the auto or manual outcome below |
| App.Server.IndexAuto | app.py:37-68 | a failed people or topics call shows its error; the celebrity is "a trending public figure" or one of the parsed people; the stored chosen topic is non-empty and one of the stored topics; then redirect to the result |
| App.Server.IndexManual | app.py:70-82 | a blank celebrity is refused before any topic call and nothing more is stored; otherwise the celebrity and the parsed topics are stored and the topic list follows |
| App.AutoOutcome | app.py:37-68 | the state an automatic POST leaves: every key but the celebrity, the topics and the chosen topic keeps its value |
| App.ManualOutcome | app.py:70-82 | the state a manual POST leaves: every key but the celebrity and the topics keeps its value |
| App.AutoLeadsToResult | app.py:57-68 | after an automatic POST reaching the result page, the chosen topic is non-empty and belongs to the stored topic list |
| App.ManualLeadsToTopics | app.py:74-82 | after a manual POST reaching the topic list, the session holds the entered celebrity and at least one topic |
| App.Server.Topics | app.py:87-110 | without topics it goes back to "/"; a POST without a choice is refused and stores nothing; otherwise the stored chosen topic is the topic at the clamped index |
| App.Server.Result | app.py:113-149 | without a chosen topic it goes back to "/"; otherwise the page shows the stored celebrity, niche, style and region with the parsed assets, or with the error as the description and no titles and no tags |
| App.Server.Upload | app.py:152-224 | a POST with a selected title stores the stripped title, the description and the split tags; a POST with a video shows the stored selection with the upload's outcome; anything else goes back to "/" |
| App.VideoOutcome | app.py:177-222 | title, description and tags come from the session, defaulting to "Untitled Short", empty and none; an address appears exactly when the file name is non-empty and the upload succeeded, and an error exactly when it does not |

## Left out

- The completion client and its calls, including the model name and the sampling
  temperature 0.9. A reply is a parameter.
- The prompt texts. These are fixed templates and have no effect on parsing.
  Style and region reach only the prompts, so the parsing functions do not take
  them. `generate_trending_people` reaches the completion client alone, so
  `GenerateTrendingPeople` takes only the reply.
- The upload to YouTube (youtube_uploader.py is not part of this model). Its
  outcome is a `Completion`.
- The saving of the uploaded file, because it is file system I/O. The model
  keeps only the file name's emptiness test.
- `secure_filename`, a pure string function from Werkzeug, whose source is not
  part of this model. The sanitised name only chooses where the file is saved.
- App.VideoOutcome: `secure_filename` turns some non-empty file names, such as
  `".."` or a name made only of non-ASCII letters, into `""`. `file.save` at
  app.py:195 then fails outside the `try`, so the request ends in an error.
  The model shows such an upload's outcome instead. It cannot tell those
  names apart without `secure_filename`.
- The Telegram bot (tg_youtube_bot.py is not part of this model).
- Flask plumbing: template rendering beyond the values handed to a template,
  `url_for`, the upload size limit and the secret key.
- The concrete generator behind `random.choice`. The choice is modelled as
  membership only.
- Full Unicode behaviour of `upper`, `isdigit` and `int()` on non-ASCII digits.
  These are the ASCII versions.
- App.SessionString: a stored value of the other kind (a list under a string
  key) is read as missing rather than passed through. This program never
  stores one.

=== FILE: app.dfy ===
/** The selection rules of the web front end (app.py): reading the index form,
    the automatic picks of a person and a topic, the topic index of the topics
    form, the tag string of the upload form, and what each route writes into the
    session. The language-model calls arrive as `Completion` values, the
    session is a plain map, and `random.choice` is a nondeterministic choice of
    a member. */
module App {
  import opened Text
  import opened LlmHelper

  // ---------------------------------------------------------------- requests and responses

  /** What a call into the completion client gave: the reply text, or the
      message of the exception it raised. */
  datatype Completion = Reply(text: string) | Failed(message: string)

  /** A session value: a string or a list of strings. */
  datatype Value = Str(s: string) | Strs(items: seq<string>)

  /** The session keys this program uses: "niche", "style", "region", "celeb",
      "topics", "chosen_topic", "selected_title", "selected_description" and
      "selected_tags". */
  datatype Key = Niche | Style | Region | Celeb | TopicList | ChosenTopic
               | SelectedTitle | SelectedDescription | SelectedTags

  type Session = map<Key, Value>

  datatype Route = ToIndex | ToTopics | ToResult

  /** A redirect, or the page rendered with the values handed to its template. */
  datatype Response =
    | Redirect(target: Route)
    | IndexPage(error: Option<string>)
    | TopicsPage(topics: seq<string>, celebrity: string, error: Option<string>)
    | ResultPage(celebrity: string, niche: string, style: string, region: string,
                 topic: string, assets: AssetBundle)
    | UploadPage(title: string, description: string, tags: seq<string>,
                 youtubeUrl: Option<string>, error: Option<string>)

  /** `request.form.get(key) or ""`. */
  function FormValue(form: map<string, string>, key: string): (v: string)
    ensures key !in form ==> v == []
    ensures key in form ==> v == form[key]
  {
    if key in form then form[key] else []
  }

  /** `session.get(key, default)` for a key this program stores strings under. */
  function SessionString(session: Session, key: Key, default: string): (v: string)
    ensures key !in session ==> v == default
    ensures key in session && session[key].Str? ==> v == session[key].s
  {
    if key in session && session[key].Str? then session[key].s else default
  }

  /** `session.get(key) or []` for a key this program stores lists under. */
  function SessionList(session: Session, key: Key): (v: seq<string>)
    ensures key !in session ==> v == []
    ensures key in session && session[key].Strs? ==> v == session[key].items
  {
    if key in session && session[key].Strs? then session[key].items else []
  }

  // ---------------------------------------------------------------- the index form

  datatype IndexForm = IndexForm(celebrity: string, niche: string, style: string, region: string, autoMode: bool)

  const DefaultStyle := "Commentary"

  /** The index form's fields: celebrity, niche and region stripped, style
      "Commentary" when missing or empty, auto mode when the box says "on". */
  function ReadIndexForm(form: map<string, string>): (f: IndexForm)
    ensures Trimmed(f.celebrity, Whitespace) && Trimmed(f.niche, Whitespace) && Trimmed(f.region, Whitespace)
    ensures f.style != []
    ensures f.style == DefaultStyle <== ("style" !in form || form["style"] == [])
    ensures "style" in form && form["style"] != [] ==> f.style == form["style"]
    ensures f.autoMode <==> "auto_mode" in form && form["auto_mode"] == "on"
    ensures "celebrity" !in form ==> f.celebrity == []
  {
    IndexForm(
      Strip(FormValue(form, "celebrity"), Whitespace),
      Strip(FormValue(form, "niche"), Whitespace),
      OrElse(FormValue(form, "style"), DefaultStyle),
      Strip(FormValue(form, "region"), Whitespace),
      "auto_mode" in form && form["auto_mode"] == "on")
  }

  /** The session after the three settings of the index form are stored. */
  function WithSettings(session: Session, f: IndexForm): (s: Session)
    ensures s.Keys == session.Keys + {Niche, Style, Region}
    ensures s[Niche] == Str(f.niche) && s[Style] == Str(f.style) && s[Region] == Str(f.region)
    ensures forall k :: k in session && k != Niche && k != Style && k != Region ==> s[k] == session[k]
  {
    session[Niche := Str(f.niche)][Style := Str(f.style)][Region := Str(f.region)]
  }

  // ---------------------------------------------------------------- the picks

  const NoCelebrity := "a trending public figure"

  /** `random.choice(xs)`: some member of a non-empty list. */
  method Choose(xs: seq<string>) returns (x: string)
    requires xs != []
    ensures x in xs
  {
    assert xs[0] in xs;
    x :| x in xs;
  }

  /** The automatic person: one of the extracted people, or a generic phrase when
      there are none. */
  method PickCelebrity(people: seq<string>) returns (celebrity: string)
    ensures people == [] ==> celebrity == NoCelebrity
    ensures people != [] ==> celebrity in people
    ensures celebrity != [] <== NoneEmpty(people)
  {
    if people == [] {
      celebrity := NoCelebrity;
    } else {
      celebrity := Choose(people);
    }
  }

  /** The topic named when an automatic pick has no topics to choose from. */
  function HotTopic(celebrity: string, niche: string): (topic: string)
    ensures Mentions(topic, celebrity) && Mentions(topic, OrElse(niche, "their niche"))
    ensures topic != []
  {
    var prefix := "Hot topic about ";
    MentionsIn(prefix, celebrity, " in ");
    MentionsExtend(prefix + celebrity + " in ", celebrity, OrElse(niche, "their niche"));
    MentionsIn(prefix + celebrity + " in ", OrElse(niche, "their niche"), []);
    prefix + celebrity + " in " + OrElse(niche, "their niche")
  }

  /** The automatic topic: one of the topics, or the generic topic when there are none. */
  method PickTopic(topics: seq<string>, celebrity: string, niche: string) returns (topic: string)
    ensures topics != [] ==> topic in topics
    ensures topics == [] ==> topic == HotTopic(celebrity, niche)
    ensures topic != [] <== NoneEmpty(topics)
  {
    if topics != [] {
      topic := Choose(topics);
    } else {
      topic := HotTopic(celebrity, niche);
    }
  }

  // ---------------------------------------------------------------- the topic index

  /** The index the topics form selects: `int(raw)` when it parses and lies in
      range, 0 otherwise. */
  function ChosenIndex(raw: string, count: nat): (i: nat)
    requires count > 0
    ensures i < count
    ensures ParseInt(raw).Some? && 0 <= ParseInt(raw).value < count ==> i == ParseInt(raw).value
    ensures ParseInt(raw).None? || ParseInt(raw).value < 0 || ParseInt(raw).value >= count ==> i == 0
  {
    match ParseInt(raw)
    case None => 0
    case Some(n) => if n < 0 || n >= count then 0 else n
  }

  /** The topic index as the handler computes it, one reassignment at a time. */
  method ResolveChosenIndex(raw: string, count: nat) returns (index: nat)
    requires count > 0
    ensures index == ChosenIndex(raw, count)
  {
    var chosen: int;
    match ParseInt(raw) {
      case Some(n) => chosen := n;
      case None => chosen := 0;
    }
    if chosen < 0 || chosen >= count {
      chosen := 0;
    }
    index := chosen;
  }

  /** The index of any listed topic, written in decimal as the form sends it,
      selects that topic (for an index `str` can write, at most `MaxStrDigits`
      digits long). */
  lemma ChosenIndexOfDecimal(i: nat, count: nat)
    requires i < count && |DecimalString(i)| <= MaxStrDigits
    ensures ChosenIndex(DecimalString(i), count) == i
  {
    ParseIntOfDecimal(i);
  }

  /** A choice longer than `int()` accepts, zero-padded or not, takes the
      `ValueError` path and selects the first topic. */
  lemma ChosenIndexTooLong(raw: string, count: nat)
    requires count > 0
    requires DecimalDigits(raw) && DigitCount(raw) > MaxStrDigits
    ensures ChosenIndex(raw, count) == 0
  {
    ParseIntTooLong(raw);
  }

  // ---------------------------------------------------------------- the server

  class Server {
    var session: Session

    constructor()
      ensures session == map[]
    {
      session := map[];
    }

    /** The "/" route. A GET shows the form. A POST stores the settings, then in
        auto mode picks a person and a topic and goes to the result; otherwise it
        needs a celebrity, generates topics and goes to the topic list. */
    method Index(post: bool, form: map<string, string>, peopleReply: Completion, topicsReply: Completion)
      returns (r: Response)
      modifies this
      ensures !post ==> r == IndexPage(None) && session == old(session)
      ensures post ==> PostOutcome(old(session), ReadIndexForm(form), peopleReply, topicsReply, session, r)
    {
      if !post {
        return IndexPage(None);
      }
      var f := ReadIndexForm(form);
      session := WithSettings(session, f);
      if f.autoMode {
        r := IndexAuto(f, peopleReply, topicsReply);
      } else {
        r := IndexManual(f, topicsReply);
      }
    }

    /** Auto mode of "/": the person pick, the topics, the topic pick. */
    method IndexAuto(f: IndexForm, peopleReply: Completion, topicsReply: Completion) returns (r: Response)
      modifies this
      ensures AutoOutcome(old(session), f, peopleReply, topicsReply, session, r)
    {
      if peopleReply.Failed? {
        return IndexPage(Some("Error from AI (people): " + peopleReply.message));
      }
      var people := GenerateTrendingPeople(peopleReply.text);
      var celebrity := PickCelebrity(people);
      session := session[Celeb := Str(celebrity)];
      if topicsReply.Failed? {
        return IndexPage(Some("Error from AI (topics): " + topicsReply.message));
      }
      var topics := GenerateTrendingTopics(celebrity, f.niche, topicsReply.text);
      session := session[TopicList := Strs(topics)];
      var topic := PickTopic(topics, celebrity, f.niche);
      session := session[ChosenTopic := Str(topic)];
      r := Redirect(ToResult);
    }

    /** Manual mode of "/": a blank celebrity is refused before any topic is
        generated. */
    method IndexManual(f: IndexForm, topicsReply: Completion) returns (r: Response)
      modifies this
      ensures ManualOutcome(old(session), f, topicsReply, session, r)
    {
      if f.celebrity == [] {
        return IndexPage(Some(MissingCelebrity));
      }
      session := session[Celeb := Str(f.celebrity)];
      if topicsReply.Failed? {
        return IndexPage(Some("Error from AI: " + topicsReply.message));
      }
      var topics := GenerateTrendingTopics(f.celebrity, f.niche, topicsReply.text);
      session := session[TopicList := Strs(topics)];
      r := Redirect(ToTopics);
    }

    /** The "/topics" route: with no topics in the session it goes back to "/";
        a POST without a choice is refused; otherwise the chosen topic, always one
        of the listed topics, is stored and the result page follows. */
    method Topics(post: bool, form: map<string, string>) returns (r: Response)
      modifies this
      ensures var topics := SessionList(old(session), TopicList);
              var celebrity := SessionString(old(session), Celeb, []);
              && (topics == [] ==> r == Redirect(ToIndex) && session == old(session))
              && (topics != [] && !post ==> r == TopicsPage(topics, celebrity, None) && session == old(session))
              && (topics != [] && post && "chosen_topic" !in form ==>
                    r == TopicsPage(topics, celebrity, Some(NoTopicChosen)) && session == old(session))
              && (topics != [] && post && "chosen_topic" in form ==>
                    var i := ChosenIndex(form["chosen_topic"], |topics|);
                    r == Redirect(ToResult) && session == old(session)[ChosenTopic := Str(topics[i])])
    {
      var topics := SessionList(session, TopicList);
      var celebrity := SessionString(session, Celeb, []);
      if topics == [] {
        return Redirect(ToIndex);
      }
      if !post {
        return TopicsPage(topics, celebrity, None);
      }
      if "chosen_topic" !in form {
        return TopicsPage(topics, celebrity, Some(NoTopicChosen));
      }
      var index := ResolveChosenIndex(form["chosen_topic"], |topics|);
      session := session[ChosenTopic := Str(topics[index])];
      r := Redirect(ToResult);
    }

    /** The "/result" route: without a chosen topic it goes back to "/"; otherwise
        it shows the stored celebrity, niche, style and region with the extracted
        assets, or with the error in place of the description. */
    method Result(assetsReply: Completion) returns (r: Response)
      ensures var topic := SessionString(session, ChosenTopic, []);
              var celebrity := SessionString(session, Celeb, []);
              var niche := SessionString(session, Niche, []);
              var style := SessionString(session, Style, []);
              var region := SessionString(session, Region, []);
              && (topic == [] ==> r == Redirect(ToIndex))
              && (topic != [] && assetsReply.Failed? ==>
                    r == ResultPage(celebrity, niche, style, region, topic,
                                    AssetBundle([], "Error generating assets: " + assetsReply.message, [])))
              && (topic != [] && assetsReply.Reply? ==>
                    r == ResultPage(celebrity, niche, style, region, topic,
                                    YoutubeAssets(celebrity, niche, topic, assetsReply.text)))
    {
      var celebrity := SessionString(session, Celeb, []);
      var niche := SessionString(session, Niche, []);
      var style := SessionString(session, Style, []);
      var region := SessionString(session, Region, []);
      var topic := SessionString(session, ChosenTopic, []);
      if topic == [] {
        return Redirect(ToIndex);
      }
      if assetsReply.Failed? {
        return ResultPage(celebrity, niche, style, region, topic,
                          AssetBundle([], "Error generating assets: " + assetsReply.message, []));
      }
      var assets := GenerateYoutubeAssets(celebrity, niche, topic, assetsReply.text);
      r := ResultPage(celebrity, niche, style, region, topic, assets);
    }

    /** The "/upload" route. A POST from the result page stores the selected
        title, description and tags; a POST with a video shows the stored ones
        with the upload's outcome; anything else goes back to "/". */
    method Upload(post: bool, form: map<string, string>, video: Option<string>, uploadReply: Completion)
      returns (r: Response)
      modifies this
      ensures post && "selected_title" in form ==>
                var title := Strip(FormValue(form, "selected_title"), Whitespace);
                var description := FormValue(form, "description");
                var tags := TagTokens(FormValue(form, "tags"));
                && r == UploadPage(title, description, tags, None, None)
                && session == old(session)[SelectedTitle := Str(title)]
                                          [SelectedDescription := Str(description)]
                                          [SelectedTags := Strs(tags)]
      ensures !(post && "selected_title" in form) ==> session == old(session)
      ensures post && "selected_title" !in form && video.Some? ==>
                r == VideoOutcome(old(session), video.value, uploadReply)
      ensures !post || ("selected_title" !in form && video.None?) ==> r == Redirect(ToIndex)
    {
      if post && "selected_title" in form {
        var title := Strip(FormValue(form, "selected_title"), Whitespace);
        var description := FormValue(form, "description");
        var tags := TagTokens(FormValue(form, "tags"));
        session := session[SelectedTitle := Str(title)];
        session := session[SelectedDescription := Str(description)];
        session := session[SelectedTags := Strs(tags)];
        return UploadPage(title, description, tags, None, None);
      }
      if post && video.Some? {
        var title := SessionString(session, SelectedTitle, "Untitled Short");
        var description := SessionString(session, SelectedDescription, []);
        var tags := SessionList(session, SelectedTags);
        if video.value == [] {
          return UploadPage(title, description, tags, None, Some("Please select a video file."));
        }
        if uploadReply.Failed? {
          return UploadPage(title, description, tags, None, Some("Error uploading to YouTube: " + uploadReply.message));
        }
        return UploadPage(title, description, tags, Some(uploadReply.text), None);
      }
      r := Redirect(ToIndex);
    }
  }

  const MissingCelebrity := "Please enter a celebrity/public figure (or enable auto mode)."
  const NoTopicChosen := "Please select a topic."

  /** What a POST of "/" leaves behind: the settings are stored first, whatever
      follows. */
  ghost predicate PostOutcome(before: Session, f: IndexForm, peopleReply: Completion, topicsReply: Completion,
                              after: Session, r: Response)
  {
    if f.autoMode then AutoOutcome(WithSettings(before, f), f, peopleReply, topicsReply, after, r)
    else ManualOutcome(WithSettings(before, f), f, topicsReply, after, r)
  }

  /** What a POST of "/" in auto mode leaves behind, from the session `before` in
      which the settings are already stored. */
  ghost predicate AutoOutcome(before: Session, f: IndexForm, peopleReply: Completion, topicsReply: Completion,
                              after: Session, r: Response)
    ensures AutoOutcome(before, f, peopleReply, topicsReply, after, r) ==>
              forall k :: k in before && k != Celeb && k != TopicList && k != ChosenTopic ==>
                k in after && after[k] == before[k]
  {
    if peopleReply.Failed? then
      r == IndexPage(Some("Error from AI (people): " + peopleReply.message)) && after == before
    else
      var people := TrendingPeople(peopleReply.text);
      && Celeb in after && after[Celeb].Str?
      && var celebrity := after[Celeb].s;
      && (people == [] ==> celebrity == NoCelebrity)
      && (people != [] ==> celebrity in people)
      && if topicsReply.Failed? then
           r == IndexPage(Some("Error from AI (topics): " + topicsReply.message))
           && after == before[Celeb := Str(celebrity)]
         else
           var topics := TrendingTopics(celebrity, f.niche, topicsReply.text);
           && ChosenTopic in after && after[ChosenTopic].Str?
           && var topic := after[ChosenTopic].s;
           && topic in topics && topic != []
           && after == before[Celeb := Str(celebrity)][TopicList := Strs(topics)][ChosenTopic := Str(topic)]
           && r == Redirect(ToResult)
  }

  /** What a POST of "/" in manual mode leaves behind. */
  ghost predicate ManualOutcome(before: Session, f: IndexForm, topicsReply: Completion, after: Session, r: Response)
    ensures ManualOutcome(before, f, topicsReply, after, r) ==>
              forall k :: k in before && k != Celeb && k != TopicList ==> k in after && after[k] == before[k]
  {
    if f.celebrity == [] then
      r == IndexPage(Some(MissingCelebrity)) && after == before
    else if topicsReply.Failed? then
      r == IndexPage(Some("Error from AI: " + topicsReply.message)) && after == before[Celeb := Str(f.celebrity)]
    else
      var topics := TrendingTopics(f.celebrity, f.niche, topicsReply.text);
      r == Redirect(ToTopics) && after == before[Celeb := Str(f.celebrity)][TopicList := Strs(topics)]
  }

  /** After an automatic POST of "/" that reaches the result page, the session
      holds a non-empty chosen topic drawn from the stored topic list, so "/result"
      does not send the visitor back. */
  lemma AutoLeadsToResult(before: Session, f: IndexForm, peopleReply: Completion, topicsReply: Completion,
                          after: Session, r: Response)
    requires AutoOutcome(before, f, peopleReply, topicsReply, after, r)
    requires r == Redirect(ToResult)
    ensures SessionString(after, ChosenTopic, []) != []
    ensures SessionString(after, ChosenTopic, []) in SessionList(after, TopicList)
  {
  }

  /** After a manual POST of "/" that reaches the topic list, the session holds
      the entered celebrity and at least one topic, so "/topics" shows the list. */
  lemma ManualLeadsToTopics(before: Session, f: IndexForm, topicsReply: Completion, after: Session, r: Response)
    requires ManualOutcome(before, f, topicsReply, after, r)
    requires r == Redirect(ToTopics)
    ensures SessionList(after, TopicList) != []
    ensures SessionString(after, Celeb, []) == f.celebrity && f.celebrity != []
  {
  }

  /** The page a POST with a video shows: the stored selection, with the error of
      an empty file name or of the upload, or the video's address. */
  function VideoOutcome(session: Session, filename: string, uploadReply: Completion): (r: Response)
    ensures r.UploadPage?
    ensures r.title == SessionString(session, SelectedTitle, "Untitled Short")
    ensures r.description == SessionString(session, SelectedDescription, [])
    ensures r.tags == SessionList(session, SelectedTags)
    ensures r.youtubeUrl.Some? <==> filename != [] && uploadReply.Reply?
    ensures r.error.None? <==> r.youtubeUrl.Some?
  {
    var title := SessionString(session, SelectedTitle, "Untitled Short");
    var description := SessionString(session, SelectedDescription, []);
    var tags := SessionList(session, SelectedTags);
    if filename == [] then UploadPage(title, description, tags, None, Some("Please select a video file."))
    else if uploadReply.Failed? then UploadPage(title, description, tags, None, Some("Error uploading to YouTube: " + uploadReply.message))
    else UploadPage(title, description, tags, Some(uploadReply.text), None)
  }
}

=== FILE: llm_helper.dfy ===
/** The parsing halves of `generate_trending_people`, `generate_trending_topics`
    and `generate_youtube_assets`: what is done with the completion text once the
    language model has returned it. The text is a parameter here; the request that
    produces it is not part of this model. */
module LlmHelper {
  import opened Text

  /** The characters `strip(" -–:")` removes around a list entry. */
  const EntryTrim: set<char> := set c: char | c == ' ' || c == '-' || c == '\U{2013}' || c == ':'

  /** Lists of people and topics are cut to this many entries. */
  const MaxEntries: nat := 5

  // ================================================================ numbered lists

  /** The entry a line such as "3) Some Name" contributes: the text after the first
      ')' with " -–:" stripped from both ends, if that leaves anything. */
  function NumberedEntry(line: string): (r: Option<string>)
    ensures r.Some? ==> ')' in line && r.value != [] && Trimmed(r.value, EntryTrim)
    ensures r.None? <==> (')' !in line || Within(AfterFirst(line, ')'), EntryTrim))
  {
    if ')' in line then
      var e := Strip(AfterFirst(line, ')'), EntryTrim);
      StripEmptyIff(AfterFirst(line, ')'), EntryTrim);
      if e != [] then Some(e) else None
    else None
  }

  /** The entries of `lines`, in order, before truncation. */
  function Numbered(lines: seq<string>): (r: seq<string>)
    ensures |r| <= |lines|
  {
    FilterMap(lines, NumberedEntry)
  }

  /** Every extracted entry is non-empty and has no " -–:" at either end. */
  lemma {:induction false} NumberedTrimmed(lines: seq<string>)
    ensures AllTrimmed(Numbered(lines), EntryTrim)
  {
    if lines != [] {
      var front := lines[..|lines| - 1];
      NumberedTrimmed(front);
      match NumberedEntry(lines[|lines| - 1])
      case Some(e) => AllTrimmedAppend(Numbered(front), [e], EntryTrim);
      case None =>
    }
  }

  /** Extraction works line by line: the entries of two blocks of lines are those
      of the first block followed by those of the second (order is kept, and a line
      without an entry contributes nothing). */
  lemma NumberedAppend(a: seq<string>, b: seq<string>)
    ensures Numbered(a + b) == Numbered(a) + Numbered(b)
  {
    FilterMapAppend(a, b, NumberedEntry);
  }

  /** When each line yields an entry, the entries are exactly those, in order. */
  lemma NumberedEach(lines: seq<string>, entries: seq<string>)
    requires |lines| == |entries|
    requires forall i :: 0 <= i < |lines| ==> NumberedEntry(lines[i]) == Some(entries[i])
    ensures Numbered(lines) == entries
  {
    FilterMapEach(lines, entries, NumberedEntry);
  }

  // ---------------------------------------------------------------- the list format

  /** The lines of a numbered list in the format the prompts ask for, numbered from
      `first`, with `mark` after each number: "1) entry" for people and topics,
      "1. title" for titles. */
  function ListLines(entries: seq<string>, first: nat, mark: char): (lines: seq<string>)
    ensures |lines| == |entries|
    ensures forall i :: 0 <= i < |lines| ==> lines[i] == ListLine(first + i, mark, entries[i])
  {
    if entries == [] then []
    else [ListLine(first, mark, entries[0])] + ListLines(entries[1..], first + 1, mark)
  }

  function ListLine(n: nat, mark: char, entry: string): string
  {
    DecimalString(n) + [mark] + (" " + entry)
  }

  /** A reply listing `entries` as the people and topics prompts ask: "1) ...",
      one per line. */
  function ListText(entries: seq<string>): string
  {
    JoinWith(ListLines(entries, 1, ')'), "\n")
  }

  /** An entry that is a single non-empty line with no whitespace at either end. */
  predicate CleanLine(e: string) {
    e != [] && Trimmed(e, Whitespace) && Avoids(e, LineBreaks)
  }

  /** The text after the mark of a list line is the entry with one space before it. */
  lemma ListLineAfterMark(n: nat, mark: char, e: string)
    requires !IsDigit(mark)
    ensures mark in ListLine(n, mark, e) && AfterFirst(ListLine(n, mark, e), mark) == " " + e
  {
    var d := DecimalString(n);
    assert mark !in d by {
      assert forall i :: 0 <= i < |d| ==> IsDigit(d[i]);
    }
    AfterFirstOfPrefix(d, mark, " " + e);
  }

  /** A line "N) entry" yields the entry back. */
  lemma NumberedEntryOfLine(n: nat, e: string)
    requires e != [] && Trimmed(e, EntryTrim)
    ensures NumberedEntry(ListLine(n, ')', e)) == Some(e)
  {
    ListLineAfterMark(n, ')', e);
    assert Within(" ", EntryTrim);
    StripPadded(" ", e, [], EntryTrim);
    assert " " + e + [] == " " + e;
  }

  /** A list line of a clean entry is itself a clean line that starts with a digit. */
  lemma ListLineClean(n: nat, mark: char, e: string)
    requires CleanLine(e) && mark !in LineBreaks
    ensures CleanLine(ListLine(n, mark, e)) && IsDigit(ListLine(n, mark, e)[0])
  {
    var d := DecimalString(n);
    DigitNotSpace(d[0]);
    assert Avoids(d, LineBreaks) by {
      forall i | 0 <= i < |d| ensures d[i] !in LineBreaks {
        DigitNotSpace(d[i]);
      }
    }
    assert Avoids([mark], LineBreaks);
    assert Avoids(" ", LineBreaks);
    AvoidsConcat(d, [mark], LineBreaks);
    AvoidsConcat(" ", e, LineBreaks);
    AvoidsConcat(d + [mark], " " + e, LineBreaks);
    var line := ListLine(n, mark, e);
    assert line[0] == d[0] && line[|line| - 1] == e[|e| - 1];
  }

  /** Extraction recovers every entry of a reply in the requested format, in order. */
  lemma NumberedRoundTrip(entries: seq<string>)
    requires forall i :: 0 <= i < |entries| ==> CleanLine(entries[i]) && Trimmed(entries[i], EntryTrim)
    ensures Numbered(ContentLines(ListText(entries))) == entries
  {
    var lines := ListLines(entries, 1, ')');
    forall i | 0 <= i < |lines|
      ensures CleanLine(lines[i])
      ensures NumberedEntry(lines[i]) == Some(entries[i])
    {
      ListLineClean(1 + i, ')', entries[i]);
      NumberedEntryOfLine(1 + i, entries[i]);
    }
    ContentLinesOfJoin(lines);
    NumberedEach(lines, entries);
  }

  /** A reply with no ')' anywhere yields no entries. */
  lemma NumberedWithoutParen(text: string)
    requires ')' !in text
    ensures Numbered(ContentLines(text)) == []
  {
    assert Avoids(text, {')'});
    ContentLinesAvoid(text, {')'});
    var lines := ContentLines(text);
    forall i | 0 <= i < |lines| ensures NumberedEntry(lines[i]).None? {
      assert Avoids(lines[i], {')'});
    }
    FilterMapNone(lines, NumberedEntry);
  }

  /** `people[:5]` after the extraction loop of `generate_trending_people`; there is
      no fallback, so the list may be empty. */
  function TrendingPeople(text: string): (people: seq<string>)
    ensures |people| <= MaxEntries
    ensures AllTrimmed(people, EntryTrim)
  {
    var all := Numbered(ContentLines(text));
    NumberedTrimmed(ContentLines(text));
    var people := Take(all, MaxEntries);
    assert forall i :: 0 <= i < |people| ==> people[i] == all[i];
    people
  }

  /** The five topics used when nothing could be extracted. */
  function TopicFallback(celebrity: string, niche: string): (topics: seq<string>)
    ensures |topics| == MaxEntries
    ensures NoneEmpty(topics) && forall i :: 0 <= i < |topics| ==> Mentions(topics[i], celebrity)
    ensures Mentions(topics[1], OrElse(niche, "their niche"))
    ensures Mentions(topics[4], OrElse(niche, "their field"))
  {
    var n1, n4 := OrElse(niche, "their niche"), OrElse(niche, "their field");
    var t0 := "Inside the rise of " + celebrity;
    var t1 := "Why " + celebrity + " is dominating " + n1;
    var t2 := "The truth about " + celebrity + " nobody talks about";
    var t3 := "Top 5 facts about " + celebrity;
    var t4 := "How " + celebrity + " changed the game in " + n4;
    MentionsIn("Inside the rise of ", celebrity, []);
    MentionsIn("Why ", celebrity, " is dominating ");
    MentionsExtend("Why " + celebrity + " is dominating ", celebrity, n1);
    MentionsIn("Why " + celebrity + " is dominating ", n1, []);
    MentionsIn("The truth about ", celebrity, " nobody talks about");
    MentionsIn("Top 5 facts about ", celebrity, []);
    MentionsIn("How ", celebrity, " changed the game in ");
    MentionsExtend("How " + celebrity + " changed the game in ", celebrity, n4);
    MentionsIn("How " + celebrity + " changed the game in ", n4, []);
    [t0, t1, t2, t3, t4]
  }

  /** The topics `generate_trending_topics` returns: between one and five non-empty
      entries; the extracted ones when there are any, the fallback otherwise. */
  function TrendingTopics(celebrity: string, niche: string, text: string): (topics: seq<string>)
    ensures 1 <= |topics| <= MaxEntries && NoneEmpty(topics)
    ensures topics == if Numbered(ContentLines(text)) == [] then TopicFallback(celebrity, niche)
                      else Take(Numbered(ContentLines(text)), MaxEntries)
  {
    var parsed := Take(Numbered(ContentLines(text)), MaxEntries);
    if parsed == [] then TopicFallback(celebrity, niche)
    else
      assert NoneEmpty(parsed) by {
        var all := Numbered(ContentLines(text));
        NumberedTrimmed(ContentLines(text));
        assert forall i :: 0 <= i < |parsed| ==> parsed[i] == all[i];
      }
      parsed
  }

  /** A reply in the requested format gives back its first five people, in order. */
  lemma PeopleOfList(people: seq<string>)
    requires forall i :: 0 <= i < |people| ==> CleanLine(people[i]) && Trimmed(people[i], EntryTrim)
    ensures TrendingPeople(ListText(people)) == Take(people, MaxEntries)
  {
    NumberedRoundTrip(people);
  }

  /** A reply in the requested format listing at least one topic gives back its
      first five topics, in order; the fallback is not used. */
  lemma TopicsOfList(celebrity: string, niche: string, topics: seq<string>)
    requires topics != []
    requires forall i :: 0 <= i < |topics| ==> CleanLine(topics[i]) && Trimmed(topics[i], EntryTrim)
    ensures TrendingTopics(celebrity, niche, ListText(topics)) == Take(topics, MaxEntries)
  {
    NumberedRoundTrip(topics);
  }

  /** A reply with no ')' at all falls back to the five generated topics. */
  lemma TopicsWithoutParen(celebrity: string, niche: string, text: string)
    requires ')' !in text
    ensures TrendingTopics(celebrity, niche, text) == TopicFallback(celebrity, niche)
  {
    NumberedWithoutParen(text);
  }

  /** Only the first ')' separates the number: whatever follows it, later ')'
      included, is the entry, once " -–:" is stripped; an entry made only of those
      characters gives nothing. */
  lemma NumberedEntryAtFirstParen(number: string, rest: string)
    requires ')' !in number
    ensures NumberedEntry(number + [')'] + rest)
            == if Within(rest, EntryTrim) then None else Some(Strip(rest, EntryTrim))
  {
    AfterFirstOfPrefix(number, ')', rest);
  }

  /** Any padding of spaces, dashes, en dashes and colons around an entry is removed. */
  lemma NumberedEntryUnpadded(number: string, x: string, e: string, y: string)
    requires ')' !in number && Within(x, EntryTrim) && Within(y, EntryTrim)
    requires e != [] && Trimmed(e, EntryTrim)
    ensures NumberedEntry(number + [')'] + (x + e + y)) == Some(e)
  {
    AfterFirstOfPrefix(number, ')', x + e + y);
    StripPadded(x, e, y, EntryTrim);
  }

  /** The extraction loop shared by `generate_trending_people` and
      `generate_trending_topics`, over the stripped non-blank lines. */
  method NumberedEntries(lines: seq<string>) returns (entries: seq<string>)
    ensures entries == Numbered(lines)
  {
    entries := [];
    var i := 0;
    while i < |lines|
      invariant 0 <= i <= |lines|
      invariant entries == Numbered(lines[..i])
    {
      var line := lines[i];
      NumberedPrefix(lines, i);
      if ')' in line {
        var entry := Strip(AfterFirst(line, ')'), EntryTrim);
        if entry != [] {
          entries := entries + [entry];
        }
        assert NumberedEntry(line) == if entry != [] then Some(entry) else None;
      } else {
        assert NumberedEntry(line) == None;
      }
      i := i + 1;
    }
    assert lines[..i] == lines;
  }

  /** One more line extends the entries by that line's entry, if it has one. */
  lemma NumberedPrefix(lines: seq<string>, i: nat)
    requires i < |lines|
    ensures Numbered(lines[..i + 1]) == match NumberedEntry(lines[i])
                                        case Some(e) => Numbered(lines[..i]) + [e]
                                        case None => Numbered(lines[..i])
  {
    assert lines[..i + 1][..i] == lines[..i];
  }

  method GenerateTrendingPeople(text: string) returns (people: seq<string>)
    ensures people == TrendingPeople(text)
  {
    var lines := ContentLines(text);
    var entries := NumberedEntries(lines);
    people := Take(entries, MaxEntries);
  }

  method GenerateTrendingTopics(celebrity: string, niche: string, text: string) returns (topics: seq<string>)
    ensures topics == TrendingTopics(celebrity, niche, text)
  {
    var lines := ContentLines(text);
    var entries := NumberedEntries(lines);
    topics := Take(entries, MaxEntries);
    if topics == [] {
      topics := TopicFallback(celebrity, niche);
    }
  }

  // ================================================================ asset sections

  datatype Section = NoSection | Titles | Description | Tags

  /** The variables of the section loop: the current section and what has been
      collected so far. */
  datatype Scan = Scan(section: Section, titles: seq<string>, descriptionLines: seq<string>, tags: seq<string>)

  const Start := Scan(NoSection, [], [], [])

  /** The section a (stripped) line opens, if it is a header: its upper-cased form
      starts with TITLES, DESCRIPTION or TAGS, tested in that order. */
  function HeaderOf(line: string): (r: Option<Section>)
    ensures r.Some? ==> r.value != NoSection
    ensures line != [] && IsDigit(line[0]) ==> r.None?
  {
    var upper := Upper(line);
    if StartsWith(upper, "TITLES") then Some(Titles)
    else if StartsWith(upper, "DESCRIPTION") then Some(Description)
    else if StartsWith(upper, "TAGS") then Some(Tags)
    else None
  }

  /** The title a titles-section line "N. text" yields: it must start with a digit and
      contain '.'; the title is the stripped text after the first '.', if any. */
  function TitleOf(line: string): (r: Option<string>)
    ensures r.Some? ==> line != [] && IsDigit(line[0]) && '.' in line
    ensures r.Some? ==> r.value != [] && Trimmed(r.value, Whitespace)
  {
    if line != [] && IsDigit(line[0]) && '.' in line then
      var title := Strip(AfterFirst(line, '.'), Whitespace);
      if title != [] then Some(title) else None
    else None
  }

  /** `[t.strip() for t in line.split(",") if t.strip()]`. */
  function TagTokens(line: string): (tags: seq<string>)
    ensures AllTrimmed(tags, Whitespace)
  {
    NonBlank(SplitOn(line, {','}), Whitespace)
  }

  /** A comma cuts the tag line in two: the tags before it, in order, then the
      tags after it. Empty and blank tokens between commas leave no trace. */
  lemma TagTokensAtComma(a: string, b: string)
    ensures TagTokens(a + "," + b) == TagTokens(a) + TagTokens(b)
  {
    SplitOnSeparator(a, ',', b, {','});
    NonBlankAppend(SplitOn(a, {','}), SplitOn(b, {','}), Whitespace);
  }

  /** A token without a comma is one tag, stripped, unless it is blank. */
  lemma TagTokensOfToken(p: string)
    requires ',' !in p
    ensures TagTokens(p) == if Within(p, Whitespace) then [] else [Strip(p, Whitespace)]
  {
    SplitAvoiding(p, {','});
    NonBlankOne(p, Whitespace);
  }

  /** An empty token between two commas and a trailing comma are dropped:
      `"a,,b,"` gives the tags `a` and `b`. */
  lemma TagTokensSkipBlanks(a: string, b: string)
    requires ',' !in a && ',' !in b
    requires a != [] && Trimmed(a, Whitespace) && b != [] && Trimmed(b, Whitespace)
    ensures TagTokens(a + ",," + b + ",") == [a, b]
  {
    var x := [] + "," + (b + "," + []);
    TagTokensOfTag(b);
    TagTokensAtComma(b, []);
    TagTokensOfToken([]);
    TagTokensAtComma([], b + "," + []);
    TagTokensOfTag(a);
    TagTokensAtComma(a, x);
    SkipBlanksText(a, b);
  }

  /** A comma-free, non-empty, trimmed token is its own single tag. */
  lemma TagTokensOfTag(t: string)
    requires ',' !in t && t != [] && Trimmed(t, Whitespace)
    ensures TagTokens(t) == [t]
  {
    TagTokensOfToken(t);
    assert t[0] !in Whitespace;
    StripTrimmed(t, Whitespace);
  }

  lemma SkipBlanksText(a: string, b: string)
    ensures a + ",," + b + "," == a + "," + ([] + "," + (b + "," + []))
  {
  }

  /** The tag line yields no tag, so the tag fallback applies, exactly when
      it holds nothing but blanks and commas. */
  lemma TagTokensEmptyIff(line: string)
    ensures TagTokens(line) == [] <==> Within(line, Whitespace + {','})
  {
    NonBlankSplitEmptyIff(line, {','}, Whitespace);
  }

  /** Header detection ignores case and looks only at the start of the line:
      any spelling of TITLES in upper or lower case opens the titles section,
      whatever follows it. */
  lemma TitlesHeaderAnyCase(w: string, rest: string)
    requires Upper(w) == "TITLES"
    ensures HeaderOf(w + rest) == Some(Titles)
  {
    UpperAppend(w, rest);
    StartsWithAppend(Upper(w), Upper(rest));
  }

  /** Any spelling of DESCRIPTION in upper or lower case opens the description
      section, whatever follows it. */
  lemma DescriptionHeaderAnyCase(w: string, rest: string)
    requires Upper(w) == "DESCRIPTION"
    ensures HeaderOf(w + rest) == Some(Description)
  {
    UpperAppend(w, rest);
    StartsWithAppend(Upper(w), Upper(rest));
    StartsWithMismatch(Upper(w + rest), "TITLES", 0);
  }

  /** Any spelling of TAGS in upper or lower case opens the tags section,
      whatever follows it. */
  lemma TagsHeaderAnyCase(w: string, rest: string)
    requires Upper(w) == "TAGS"
    ensures HeaderOf(w + rest) == Some(Tags)
  {
    UpperAppend(w, rest);
    StartsWithAppend(Upper(w), Upper(rest));
    StartsWithMismatch(Upper(w + rest), "TITLES", 1);
    StartsWithMismatch(Upper(w + rest), "DESCRIPTION", 0);
  }

  /** A line that starts with a digit yields as its title the text after its
      FIRST '.', stripped, or nothing when that text is blank, whatever stands
      between the digit and that '.'. */
  lemma TitleAtFirstDot(d: char, mid: string, rest: string)
    requires IsDigit(d) && '.' !in mid
    ensures TitleOf([d] + mid + "." + rest)
            == if Within(rest, Whitespace) then None else Some(Strip(rest, Whitespace))
  {
    assert '.' !in [d] + mid;
    AfterFirstOfPrefix([d] + mid, '.', rest);
    StripEmptyIff(rest, Whitespace);
  }

  /** One iteration of the section loop on a raw line: blank lines are skipped. */
  function Step(st: Scan, raw: string): (r: Scan)
    ensures Strip(raw, Whitespace) == [] ==> r == st
    ensures st.titles <= r.titles && |r.titles| <= |st.titles| + 1
    ensures st.descriptionLines <= r.descriptionLines && |r.descriptionLines| <= |st.descriptionLines| + 1
  {
    var line := Strip(raw, Whitespace);
    if line == [] then st else StepLine(st, line)
  }

  /** One iteration on a stripped, non-blank line: a header switches the section,
      anything else goes to the current section. */
  function StepLine(st: Scan, line: string): (r: Scan)
    ensures HeaderOf(line).Some? ==> r.titles == st.titles && r.descriptionLines == st.descriptionLines && r.tags == st.tags
    ensures HeaderOf(line).None? ==> r.section == st.section
    ensures st.titles <= r.titles && |r.titles| <= |st.titles| + 1
    ensures st.descriptionLines <= r.descriptionLines && |r.descriptionLines| <= |st.descriptionLines| + 1
  {
    match HeaderOf(line)
    case Some(s) => st.(section := s)
    case None =>
      match st.section
      case Titles =>
        (match TitleOf(line)
         case Some(t) => st.(titles := st.titles + [t])
         case None => st)
      case Description => st.(descriptionLines := st.descriptionLines + [line])
      case Tags => st.(tags := TagTokens(line))
      case NoSection => st
  }

  predicate NoHeaders(lines: seq<string>) {
    forall i :: 0 <= i < |lines| ==> HeaderOf(lines[i]).None?
  }

  /** What the collected parts satisfy: titles and tags are stripped and non-empty;
      description lines are stripped, non-empty and never header lines. */
  predicate Collected(st: Scan) {
    && AllTrimmed(st.titles, Whitespace)
    && AllTrimmed(st.descriptionLines, Whitespace)
    && NoHeaders(st.descriptionLines)
    && AllTrimmed(st.tags, Whitespace)
  }

  /** One iteration keeps what has been collected well-formed. */
  lemma StepCollected(st: Scan, raw: string)
    requires Collected(st)
    ensures Collected(Step(st, raw))
  {
    var line := Strip(raw, Whitespace);
    if line != [] {
      StepLineCollected(st, line);
    }
  }

  lemma StepLineCollected(st: Scan, line: string)
    requires Collected(st) && line != [] && Trimmed(line, Whitespace)
    ensures Collected(StepLine(st, line))
  {
    if HeaderOf(line).None? {
      match st.section
      case Titles => TitleCollected(st, line);
      case Description => DescriptionCollected(st, line);
      case _ =>
    }
  }

  lemma TitleCollected(st: Scan, line: string)
    requires Collected(st) && st.section == Titles && HeaderOf(line).None?
    ensures Collected(StepLine(st, line))
  {
    match TitleOf(line)
    case Some(t) => AllTrimmedAppend(st.titles, [t], Whitespace);
    case None =>
  }

  lemma DescriptionCollected(st: Scan, line: string)
    requires Collected(st) && st.section == Description && HeaderOf(line).None?
    requires line != [] && Trimmed(line, Whitespace)
    ensures Collected(StepLine(st, line))
  {
    AllTrimmedAppend(st.descriptionLines, [line], Whitespace);
    var r := st.descriptionLines + [line];
    assert NoHeaders(r) by {
      assert forall i :: 0 <= i < |st.descriptionLines| ==> r[i] == st.descriptionLines[i];
    }
  }

  /** The section loop run over `lines` from the state `st`. */
  function Run(st: Scan, lines: seq<string>): (r: Scan)
    ensures st.titles <= r.titles && st.descriptionLines <= r.descriptionLines
    decreases |lines|
  {
    if lines == [] then st
    else Step(Run(st, lines[..|lines| - 1]), lines[|lines| - 1])
  }

  /** The loop keeps what has been collected well-formed. */
  lemma {:induction false} RunCollected(st: Scan, lines: seq<string>)
    requires Collected(st)
    ensures Collected(Run(st, lines))
    decreases |lines|
  {
    if lines != [] {
      RunCollected(st, lines[..|lines| - 1]);
      StepCollected(Run(st, lines[..|lines| - 1]), lines[|lines| - 1]);
    }
  }

  /** The loop over a text is the loop over its first part, continued over the rest. */
  lemma {:induction false} RunAppend(st: Scan, a: seq<string>, b: seq<string>)
    ensures Run(st, a + b) == Run(Run(st, a), b)
    decreases |b|
  {
    if b == [] {
      assert a + b == a;
    } else {
      var b' := b[..|b| - 1];
      assert (a + b)[..|a + b| - 1] == a + b';
      assert (a + b)[|a + b| - 1] == b[|b| - 1];
      RunAppend(st, a, b');
    }
  }

  /** Lines that are blank or headers only switch sections: they add nothing to the
      titles, the description or the tags. */
  lemma {:induction false} HeadersOnlySwitch(st: Scan, lines: seq<string>)
    requires forall i :: 0 <= i < |lines| ==>
               Strip(lines[i], Whitespace) == [] || HeaderOf(Strip(lines[i], Whitespace)).Some?
    ensures var r := Run(st, lines);
            r.titles == st.titles && r.descriptionLines == st.descriptionLines && r.tags == st.tags
    decreases |lines|
  {
    if lines != [] {
      HeadersOnlySwitch(st, lines[..|lines| - 1]);
    }
  }

  /** Lines before the first header are discarded. */
  lemma {:induction false} BeforeFirstHeader(preamble: seq<string>, rest: seq<string>)
    requires forall i :: 0 <= i < |preamble| ==> HeaderOf(Strip(preamble[i], Whitespace)).None?
    ensures Run(Start, preamble + rest) == Run(Start, rest)
  {
    NoHeaderFromStart(preamble);
    RunAppend(Start, preamble, rest);
  }

  lemma {:induction false} NoHeaderFromStart(lines: seq<string>)
    requires forall i :: 0 <= i < |lines| ==> HeaderOf(Strip(lines[i], Whitespace)).None?
    ensures Run(Start, lines) == Start
  {
    if lines != [] {
      NoHeaderFromStart(lines[..|lines| - 1]);
    }
  }

  /** The last non-blank line of `lines`, stripped. */
  function LastNonBlank(lines: seq<string>): (r: Option<string>)
    ensures r.Some? ==> r.value != []
  {
    if lines == [] then None
    else
      var line := Strip(lines[|lines| - 1], Whitespace);
      if line != [] then Some(line) else LastNonBlank(lines[..|lines| - 1])
  }

  /** In the tags section each line replaces the tag list: after a run of non-header
      lines the tags are those of the last non-blank line (possibly none at all,
      as for ",,"), whatever came before. */
  lemma {:induction false} TagsLastLineWins(st: Scan, lines: seq<string>)
    requires st.section == Tags
    requires forall i :: 0 <= i < |lines| ==> HeaderOf(Strip(lines[i], Whitespace)).None?
    ensures Run(st, lines).section == Tags
    ensures Run(st, lines).tags == match LastNonBlank(lines)
                                   case None => st.tags
                                   case Some(line) => TagTokens(line)
    decreases |lines|
  {
    if lines != [] {
      TagsLastLineWins(st, lines[..|lines| - 1]);
    }
  }

  // ---------------------------------------------------------------- fallbacks

  /** The three titles used when no title could be extracted. */
  function TitleFallback(celebrity: string, niche: string, chosenTopic: string): (titles: seq<string>)
    ensures |titles| == 3 && titles[0] == chosenTopic
    ensures Mentions(titles[1], celebrity) && Mentions(titles[2], celebrity)
    ensures Mentions(titles[2], OrElse(niche, "facts"))
  {
    var n := OrElse(niche, "facts");
    var t1 := celebrity + ": what nobody is telling you";
    var t2 := "Top 5 " + n + " about " + celebrity;
    MentionsStart(celebrity, ": what nobody is telling you");
    MentionsIn("Top 5 ", n, " about ");
    MentionsExtend("Top 5 " + n + " about ", n, celebrity);
    MentionsIn("Top 5 " + n + " about ", celebrity, []);
    [chosenTopic, t1, t2]
  }

  const HashtagLine := "#shorts #viral #trending"

  const WavesPhrase := " is making waves again \U{2013} here's what you need to know about '"

  /** The description used when none could be extracted: a sentence naming the
      celebrity and the chosen topic, a blank line, then the fixed hashtags. */
  function DescriptionFallback(celebrity: string, chosenTopic: string): (d: string)
    ensures d != [] && Mentions(d, celebrity) && Mentions(d, chosenTopic)
    ensures |d| >= |HashtagLine| && d[|d| - |HashtagLine|..] == HashtagLine
  {
    var sentence := celebrity + WavesPhrase + chosenTopic + "'.\n\n";
    MentionsStart(celebrity, WavesPhrase);
    MentionsExtend(celebrity + WavesPhrase, celebrity, chosenTopic);
    MentionsExtend(celebrity + WavesPhrase + chosenTopic, celebrity, "'.\n\n");
    MentionsExtend(sentence, celebrity, HashtagLine);
    MentionsIn(celebrity + WavesPhrase, chosenTopic, "'.\n\n");
    MentionsExtend(sentence, chosenTopic, HashtagLine);
    assert (sentence + HashtagLine)[|sentence|..] == HashtagLine;
    sentence + HashtagLine
  }

  /** The seven tags used when none could be extracted. */
  function TagFallback(celebrity: string, niche: string): (tags: seq<string>)
    ensures |tags| == 7 && tags[0] == celebrity && OrElse(niche, "celebrity") in tags
    ensures forall i :: 1 <= i < |tags| ==> tags[i] != []
  {
    [celebrity, celebrity + " shorts", "viral shorts", "trending", "news", OrElse(niche, "celebrity"), "shorts"]
  }

  // ---------------------------------------------------------------- the bundle

  datatype AssetBundle = AssetBundle(titles: seq<string>, description: string, tags: seq<string>)

  /** The section loop over the lines of a completion text. */
  function ScanText(text: string): (st: Scan)
    ensures Collected(st)
  {
    RunCollected(Start, SplitOn(text, LineBreaks));
    Run(Start, SplitOn(text, LineBreaks))
  }

  /** The final `"\n".join(description_lines).strip()` changes nothing: every line
      was stripped and non-empty already, so the join neither starts nor ends with
      whitespace, and it is empty only when there are no lines. */
  lemma DescriptionStripIsNoOp(lines: seq<string>)
    requires AllTrimmed(lines, Whitespace)
    ensures Strip(JoinWith(lines, "\n"), Whitespace) == JoinWith(lines, "\n")
    ensures JoinWith(lines, "\n") == [] <==> lines == []
  {
    if lines != [] {
      JoinEnds(lines, "\n");
      StripTrimmed(JoinWith(lines, "\n"), Whitespace);
    }
  }

  /** What `generate_youtube_assets` returns: titles, description and tags are never
      empty; each is what was extracted when anything was, the fallback otherwise,
      so a partial parse is kept as it is. (The description is the joined lines
      without the final strip, which changes nothing: DescriptionStripIsNoOp.) */
  function YoutubeAssets(celebrity: string, niche: string, chosenTopic: string, text: string): (a: AssetBundle)
    ensures a.titles != [] && a.description != [] && a.tags != []
    ensures var st := ScanText(text);
            && a.titles == (if st.titles == [] then TitleFallback(celebrity, niche, chosenTopic) else st.titles)
            && a.description == (if st.descriptionLines == [] then DescriptionFallback(celebrity, chosenTopic)
                                 else JoinWith(st.descriptionLines, "\n"))
            && a.tags == (if st.tags == [] then TagFallback(celebrity, niche) else st.tags)
  {
    var st := ScanText(text);
    AssetBundle(
      if st.titles == [] then TitleFallback(celebrity, niche, chosenTopic) else st.titles,
      if st.descriptionLines == [] then DescriptionFallback(celebrity, chosenTopic)
      else JoinEnds(st.descriptionLines, "\n"); JoinWith(st.descriptionLines, "\n"),
      if st.tags == [] then TagFallback(celebrity, niche) else st.tags)
  }

  /** The section loop of `generate_youtube_assets` over the lines of the text. */
  method ScanSections(lines: seq<string>) returns (titles: seq<string>, descriptionLines: seq<string>, tags: seq<string>)
    ensures var st := Run(Start, lines);
            titles == st.titles && descriptionLines == st.descriptionLines && tags == st.tags
  {
    titles, descriptionLines, tags := [], [], [];
    var section := NoSection;
    var i := 0;
    while i < |lines|
      invariant 0 <= i <= |lines|
      invariant Scan(section, titles, descriptionLines, tags) == Run(Start, lines[..i])
    {
      RunPrefix(lines, i);
      var line := Strip(lines[i], Whitespace);
      i := i + 1;
      if line == [] {
        continue;
      }
      var upper := Upper(line);
      if StartsWith(upper, "TITLES") {
        section := Titles;
        continue;
      }
      if StartsWith(upper, "DESCRIPTION") {
        section := Description;
        continue;
      }
      if StartsWith(upper, "TAGS") {
        section := Tags;
        continue;
      }
      if section == Titles {
        if IsDigit(line[0]) && '.' in line {
          var title := Strip(AfterFirst(line, '.'), Whitespace);
          if title != [] {
            titles := titles + [title];
          }
        }
      } else if section == Description {
        descriptionLines := descriptionLines + [line];
      } else if section == Tags {
        tags := TagTokens(line);
      }
    }
    assert lines[..i] == lines;
  }

  lemma RunPrefix(lines: seq<string>, i: nat)
    requires i < |lines|
    ensures Run(Start, lines[..i + 1]) == Step(Run(Start, lines[..i]), lines[i])
  {
    assert lines[..i + 1][..i] == lines[..i];
  }

  /** `generate_youtube_assets` once the completion text is in: the section loop,
      the joined description, then the fallbacks. */
  method GenerateYoutubeAssets(celebrity: string, niche: string, chosenTopic: string, text: string)
    returns (assets: AssetBundle)
    ensures assets == YoutubeAssets(celebrity, niche, chosenTopic, text)
  {
    var titles, descriptionLines, tags := ScanSections(SplitOn(text, LineBreaks));
    assert Collected(ScanText(text));
    var description := JoinDescription(descriptionLines);

    if titles == [] {
      titles := TitleFallback(celebrity, niche, chosenTopic);
    }
    if description == [] {
      description := DescriptionFallback(celebrity, chosenTopic);
    }
    if tags == [] {
      tags := TagFallback(celebrity, niche);
    }
    assets := AssetBundle(titles, description, tags);
  }

  /** `"\n".join(description_lines).strip()`, which gives the joined lines back. */
  method JoinDescription(lines: seq<string>) returns (description: string)
    requires AllTrimmed(lines, Whitespace)
    ensures description == JoinWith(lines, "\n")
    ensures description == [] <==> lines == []
  {
    description := Strip(JoinWith(lines, "\n"), Whitespace);
    DescriptionStripIsNoOp(lines);
  }

  // ---------------------------------------------------------------- the reply format

  /** The tag line of the requested format: "tag1, tag2, tag3". */
  function TagLine(tags: seq<string>): string
  {
    JoinWith(tags, ", ")
  }

  function TitlesBlock(titles: seq<string>): seq<string>
  {
    ["TITLES:"] + ListLines(titles, 1, '.')
  }

  function DescriptionBlock(descriptionLines: seq<string>): seq<string>
  {
    ["DESCRIPTION:"] + descriptionLines
  }

  function TagsBlock(tags: seq<string>): seq<string>
  {
    ["TAGS:", TagLine(tags)]
  }

  /** A reply laid out as the assets prompt asks: the titles section, the
      description section, then the tags section. */
  function AssetText(titles: seq<string>, descriptionLines: seq<string>, tags: seq<string>): string
  {
    JoinWith(TitlesBlock(titles) + DescriptionBlock(descriptionLines) + TagsBlock(tags), "\n")
  }

  /** A tag that survives the comma split as it is. */
  predicate CleanTag(t: string) {
    CleanLine(t) && ',' !in t
  }

  /** What the round trip needs of the parts: titles and description lines are
      single clean lines, description lines do not look like headers, and the tags
      are clean, at least one, and their line does not look like a header. */
  predicate Reproducible(titles: seq<string>, descriptionLines: seq<string>, tags: seq<string>) {
    && (forall i :: 0 <= i < |titles| ==> CleanLine(titles[i]))
    && (forall i :: 0 <= i < |descriptionLines| ==> CleanLine(descriptionLines[i]))
    && NoHeaders(descriptionLines)
    && tags != [] && (forall i :: 0 <= i < |tags| ==> CleanTag(tags[i]))
    && HeaderOf(TagLine(tags)).None?
  }

  /** The three header lines switch to their sections and change nothing else. */
  lemma HeaderSteps(st: Scan)
    ensures Step(st, "TITLES:") == st.(section := Titles)
    ensures Step(st, "DESCRIPTION:") == st.(section := Description)
    ensures Step(st, "TAGS:") == st.(section := Tags)
  {
    HeaderLines();
    HeaderStep(st, "TITLES:", Titles);
    HeaderStep(st, "DESCRIPTION:", Description);
    HeaderStep(st, "TAGS:", Tags);
  }

  lemma HeaderStep(st: Scan, header: string, s: Section)
    requires header != [] && HeaderOf(header) == Some(s) && Trimmed(header, Whitespace)
    ensures Step(st, header) == st.(section := s)
  {
    StripTrimmed(header, Whitespace);
    assert Step(st, header) == StepLine(st, header);
  }

  lemma HeaderLines()
    ensures HeaderOf("TITLES:") == Some(Titles) && Trimmed("TITLES:", Whitespace)
    ensures HeaderOf("DESCRIPTION:") == Some(Description) && Trimmed("DESCRIPTION:", Whitespace)
    ensures HeaderOf("TAGS:") == Some(Tags) && Trimmed("TAGS:", Whitespace)
  {
    TitlesHeader("TITLES:");
    DescriptionHeader("DESCRIPTION:");
    TagsHeader("TAGS:");
  }

  // TitlesHeader, DescriptionHeader and TagsHeader take the header line as a
  // parameter equal to the literal rather than naming the literal directly:
  // a literal argument makes the verifier unfold the recursive `Upper` and
  // `StartsWith` over every character in each caller, which is far slower.
  lemma TitlesHeader(h: string)
    requires h == "TITLES:"
    ensures HeaderOf(h) == Some(Titles) && Trimmed(h, Whitespace)
  {
    assert Upper(h) == h by { UpperOfUpper(h); }
    assert StartsWith(h, "TITLES") by {
      StartsWithAppend("TITLES", ":");
      assert "TITLES" + ":" == h;
    }
    assert Trimmed(h, Whitespace) by { assert h[0] == 'T' && h[|h| - 1] == ':'; }
  }

  lemma DescriptionHeader(h: string)
    requires h == "DESCRIPTION:"
    ensures HeaderOf(h) == Some(Description) && Trimmed(h, Whitespace)
  {
    assert Upper(h) == h by { UpperOfUpper(h); }
    assert !StartsWith(h, "TITLES") by { StartsWithMismatch(h, "TITLES", 0); }
    assert StartsWith(h, "DESCRIPTION") by {
      StartsWithAppend("DESCRIPTION", ":");
      assert "DESCRIPTION" + ":" == h;
    }
    assert Trimmed(h, Whitespace) by { assert h[0] == 'D' && h[|h| - 1] == ':'; }
  }

  lemma TagsHeader(h: string)
    requires h == "TAGS:"
    ensures HeaderOf(h) == Some(Tags) && Trimmed(h, Whitespace)
  {
    assert Upper(h) == h by { UpperOfUpper(h); }
    assert !StartsWith(h, "TITLES") by { StartsWithMismatch(h, "TITLES", 1); }
    assert !StartsWith(h, "DESCRIPTION") by { StartsWithMismatch(h, "DESCRIPTION", 0); }
    assert StartsWith(h, "TAGS") by {
      StartsWithAppend("TAGS", ":");
      assert "TAGS" + ":" == h;
    }
    assert Trimmed(h, Whitespace) by { assert h[0] == 'T' && h[|h| - 1] == ':'; }
  }

  /** Splitting the tag line of clean tags gives the tags back. */
  lemma TagTokensOfLine(tags: seq<string>)
    requires tags != [] && forall i :: 0 <= i < |tags| ==> CleanTag(tags[i])
    ensures TagTokens(TagLine(tags)) == tags
  {
    var pieces := [tags[0]] + Spaced(tags[1..]);
    JoinCommaSpace(tags);
    forall i | 0 <= i < |pieces|
      ensures Avoids(pieces[i], {','})
      ensures Strip(pieces[i], Whitespace) == tags[i] && tags[i] != []
    {
      assert Avoids(tags[i], {','});
      if i == 0 {
        StripTrimmed(tags[0], Whitespace);
      } else {
        assert pieces[i] == " " + tags[i];
        AvoidsConcat(" ", tags[i], {','});
        StripPadded(" ", tags[i], [], Whitespace);
        assert " " + tags[i] + [] == " " + tags[i];
      }
    }
    SplitJoin(pieces, ',', {','});
    NonBlankStrips(pieces, tags, Whitespace);
  }

  /** The tag line of clean tags is a clean line. */
  lemma TagLineClean(tags: seq<string>)
    requires tags != [] && forall i :: 0 <= i < |tags| ==> CleanTag(tags[i])
    ensures CleanLine(TagLine(tags))
  {
    JoinEnds(tags, ", ");
    assert Avoids(", ", LineBreaks);
    JoinAvoids(tags, ", ", LineBreaks);
  }

  /** In the titles section, the lines "1. title", "2. title", ... add exactly
      those titles. */
  lemma RunTitleLines(st: Scan, titles: seq<string>)
    requires st.section == Titles
    requires forall i :: 0 <= i < |titles| ==> CleanLine(titles[i])
    ensures Run(st, ListLines(titles, 1, '.')) == st.(titles := st.titles + titles)
  {
    ListTitleLines(titles, 1);
    RunTitles(st, ListLines(titles, 1, '.'), titles);
  }

  /** `line` is a stripped, non-header line from which the titles section takes `title`. */
  predicate TitleLine(line: string, title: string) {
    Trimmed(line, Whitespace) && line != [] && HeaderOf(line).None? && TitleOf(line) == Some(title)
  }

  /** Each of `lines` is a title line for the title at the same place. */
  predicate TitleLines(lines: seq<string>, titles: seq<string>) {
    |lines| == |titles| && (lines == [] || (TitleLine(lines[0], titles[0]) && TitleLines(lines[1..], titles[1..])))
  }

  lemma {:induction false} ListTitleLines(titles: seq<string>, first: nat)
    requires forall i :: 0 <= i < |titles| ==> CleanLine(titles[i])
    ensures TitleLines(ListLines(titles, first, '.'), titles)
  {
    if titles != [] {
      var lines := ListLines(titles, first, '.');
      TitleLineOfList(first, titles[0]);
      ListTitleLines(titles[1..], first + 1);
      assert lines[1..] == ListLines(titles[1..], first + 1, '.');
    }
  }

  lemma {:induction false} RunTitles(st: Scan, lines: seq<string>, titles: seq<string>)
    requires st.section == Titles && TitleLines(lines, titles)
    ensures Run(st, lines) == st.(titles := st.titles + titles)
    decreases |lines|
  {
    if lines == [] {
      assert Run(st, lines) == st;
      assert st.titles + titles == st.titles;
    } else {
      var next := st.(titles := st.titles + [titles[0]]);
      RunFirst(st, lines);
      TitleStep(st, lines[0], titles[0]);
      RunTitles(next, lines[1..], titles[1..]);
      AppendFirstRest(st.titles, titles);
    }
  }

  /** The loop over a non-empty list is its first step, continued over the rest. */
  lemma RunFirst(st: Scan, lines: seq<string>)
    requires lines != []
    ensures Run(st, lines) == Run(Step(st, lines[0]), lines[1..])
  {
    FirstRest(lines);
    RunAppend(st, [lines[0]], lines[1..]);
    RunOne(st, lines[0]);
  }

  lemma RunOne(st: Scan, line: string)
    ensures Run(st, [line]) == Step(st, line)
  {
    assert [line][..0] == [];
    assert Run(st, [line]) == Step(Run(st, []), line);
  }

  lemma TitleStep(st: Scan, line: string, title: string)
    requires st.section == Titles && TitleLine(line, title)
    ensures Step(st, line) == st.(titles := st.titles + [title])
  {
    StripTrimmed(line, Whitespace);
    assert Step(st, line) == StepLine(st, line);
  }

  /** A list line "N. title" of a clean title is a title line for it. */
  lemma TitleLineOfList(n: nat, title: string)
    requires CleanLine(title)
    ensures TitleLine(ListLine(n, '.', title), title)
  {
    var line := ListLine(n, '.', title);
    ListLineClean(n, '.', title);
    StripTrimmed(line, Whitespace);
    ListLineAfterMark(n, '.', title);
    StripPadded(" ", title, [], Whitespace);
    assert " " + title + [] == " " + title;
  }

  /** In the description section, clean non-header lines are kept as they are. */
  lemma RunDescriptionLines(st: Scan, lines: seq<string>)
    requires st.section == Description
    requires forall i :: 0 <= i < |lines| ==> CleanLine(lines[i])
    requires NoHeaders(lines)
    ensures Run(st, lines) == st.(descriptionLines := st.descriptionLines + lines)
  {
    PlainLinesOf(lines);
    RunPlainLines(st, lines);
  }

  /** Each of `lines` is clean and not a header. */
  predicate PlainLines(lines: seq<string>) {
    lines == [] || (CleanLine(lines[0]) && HeaderOf(lines[0]).None? && PlainLines(lines[1..]))
  }

  lemma {:induction false} PlainLinesOf(lines: seq<string>)
    requires forall i :: 0 <= i < |lines| ==> CleanLine(lines[i])
    requires NoHeaders(lines)
    ensures PlainLines(lines)
  {
    if lines != [] {
      var rest := lines[1..];
      assert NoHeaders(rest) && forall i :: 0 <= i < |rest| ==> CleanLine(rest[i]) by {
        assert forall i :: 0 <= i < |rest| ==> rest[i] == lines[i + 1];
      }
      PlainLinesOf(rest);
    }
  }

  lemma {:induction false} RunPlainLines(st: Scan, lines: seq<string>)
    requires st.section == Description && PlainLines(lines)
    ensures Run(st, lines) == st.(descriptionLines := st.descriptionLines + lines)
    decreases |lines|
  {
    if lines == [] {
      assert Run(st, lines) == st;
      assert st.descriptionLines + lines == st.descriptionLines;
    } else {
      var next := st.(descriptionLines := st.descriptionLines + [lines[0]]);
      RunFirst(st, lines);
      DescriptionStep(st, lines[0]);
      RunPlainLines(next, lines[1..]);
      AppendFirstRest(st.descriptionLines, lines);
    }
  }

  /** In the description section, a clean non-header line is kept as it is. */
  lemma DescriptionStep(st: Scan, line: string)
    requires st.section == Description && CleanLine(line) && HeaderOf(line).None?
    ensures Step(st, line) == st.(descriptionLines := st.descriptionLines + [line])
  {
    StripTrimmed(line, Whitespace);
    assert Step(st, line) == StepLine(st, line);
  }

  /** Each block sets its own part, from whatever state it starts in. */
  lemma TitlesBlockRun(st: Scan, titles: seq<string>)
    requires forall i :: 0 <= i < |titles| ==> CleanLine(titles[i])
    ensures Run(st, TitlesBlock(titles)) == st.(section := Titles, titles := st.titles + titles)
  {
    HeaderSteps(st);
    RunAppend(st, ["TITLES:"], ListLines(titles, 1, '.'));
    RunTitleLines(st.(section := Titles), titles);
  }

  lemma DescriptionBlockRun(st: Scan, lines: seq<string>)
    requires forall i :: 0 <= i < |lines| ==> CleanLine(lines[i])
    requires NoHeaders(lines)
    ensures Run(st, DescriptionBlock(lines))
            == st.(section := Description, descriptionLines := st.descriptionLines + lines)
  {
    HeaderSteps(st);
    RunAppend(st, ["DESCRIPTION:"], lines);
    RunDescriptionLines(st.(section := Description), lines);
  }

  lemma TagsBlockRun(st: Scan, tags: seq<string>)
    requires tags != [] && forall i :: 0 <= i < |tags| ==> CleanTag(tags[i])
    requires HeaderOf(TagLine(tags)).None?
    ensures Run(st, TagsBlock(tags)) == st.(section := Tags, tags := tags)
  {
    var st1 := st.(section := Tags);
    assert Step(st, "TAGS:") == st1 by {
      TagsHeader("TAGS:");
      HeaderStep(st, "TAGS:", Tags);
    }
    TagLineStep(st1, tags);
    RunTwo(st, "TAGS:", TagLine(tags));
  }

  /** In the tags section, the tag line sets the tags. */
  lemma TagLineStep(st: Scan, tags: seq<string>)
    requires st.section == Tags
    requires tags != [] && forall i :: 0 <= i < |tags| ==> CleanTag(tags[i])
    requires HeaderOf(TagLine(tags)).None?
    ensures Step(st, TagLine(tags)) == st.(tags := tags)
  {
    var line := TagLine(tags);
    TagLineClean(tags);
    StripTrimmed(line, Whitespace);
    TagTokensOfLine(tags);
    assert Step(st, line) == StepLine(st, line);
  }

  lemma RunTwo(st: Scan, a: string, b: string)
    ensures Run(st, [a, b]) == Step(Step(st, a), b)
  {
    assert [a, b][..1] == [a];
    assert [a][..0] == [];
    assert Run(st, [a]) == Step(Run(st, []), a);
    assert Run(st, [a, b]) == Step(Run(st, [a]), b);
  }

  /** Every line of a reproducible reply is a single line. */
  lemma AssetLinesSingle(titles: seq<string>, descriptionLines: seq<string>, tags: seq<string>)
    requires Reproducible(titles, descriptionLines, tags)
    ensures AllAvoid(TitlesBlock(titles) + DescriptionBlock(descriptionLines) + TagsBlock(tags), LineBreaks)
  {
    var tl := ListLines(titles, 1, '.');
    assert AllAvoid(tl, LineBreaks) by {
      forall i | 0 <= i < |tl| ensures Avoids(tl[i], LineBreaks) {
        ListLineClean(1 + i, '.', titles[i]);
      }
    }
    HeaderLinesSingle("TITLES:", "DESCRIPTION:", "TAGS:");
    AllAvoidCons("TITLES:", tl, LineBreaks);
    assert AllAvoid(descriptionLines, LineBreaks) by {
      forall i | 0 <= i < |descriptionLines| ensures Avoids(descriptionLines[i], LineBreaks) {
        assert CleanLine(descriptionLines[i]);
      }
    }
    AllAvoidCons("DESCRIPTION:", descriptionLines, LineBreaks);
    TagLineClean(tags);
    AllAvoidCons(TagLine(tags), [], LineBreaks);
    AllAvoidCons("TAGS:", [TagLine(tags)], LineBreaks);
    AllAvoidAppend(TitlesBlock(titles), DescriptionBlock(descriptionLines), LineBreaks);
    AllAvoidAppend(TitlesBlock(titles) + DescriptionBlock(descriptionLines), TagsBlock(tags), LineBreaks);
  }

  // The header lines are parameters equal to the literals for the same reason
  // as in TitlesHeader: it keeps the literals out of the callers' proofs.
  lemma HeaderLinesSingle(a: string, b: string, c: string)
    requires a == "TITLES:" && b == "DESCRIPTION:" && c == "TAGS:"
    ensures Avoids(a, LineBreaks) && Avoids(b, LineBreaks) && Avoids(c, LineBreaks)
  {
  }

  /** The section loop over a reply in the requested format recovers every title,
      every description line and every tag. */
  lemma AssetsRoundTrip(titles: seq<string>, descriptionLines: seq<string>, tags: seq<string>)
    requires Reproducible(titles, descriptionLines, tags)
    ensures ScanText(AssetText(titles, descriptionLines, tags)) == Scan(Tags, titles, descriptionLines, tags)
  {
    var b1, b2, b3 := TitlesBlock(titles), DescriptionBlock(descriptionLines), TagsBlock(tags);
    AssetLinesSingle(titles, descriptionLines, tags);
    SplitJoin(b1 + b2 + b3, '\n', LineBreaks);
    RunAppend(Start, b1 + b2, b3);
    RunAppend(Start, b1, b2);
    TitlesBlockRun(Start, titles);
    var s1 := Run(Start, b1);
    DescriptionBlockRun(s1, descriptionLines);
    TagsBlockRun(Run(s1, b2), tags);
  }

  /** So `generate_youtube_assets` returns exactly the titles, the description
      (its lines joined by newlines) and the tags of such a reply, with no
      fallback, whenever it lists at least one title and one description line. */
  lemma YoutubeAssetsOfReply(celebrity: string, niche: string, chosenTopic: string,
                             titles: seq<string>, descriptionLines: seq<string>, tags: seq<string>)
    requires Reproducible(titles, descriptionLines, tags)
    requires titles != [] && descriptionLines != []
    ensures YoutubeAssets(celebrity, niche, chosenTopic, AssetText(titles, descriptionLines, tags))
            == AssetBundle(titles, JoinWith(descriptionLines, "\n"), tags)
  {
    AssetsRoundTrip(titles, descriptionLines, tags);
  }
}

=== FILE: text.dfy ===
/** The Python `str` operations the extraction code relies on, over `seq<char>`:
    `strip`, `split`, `splitlines`, `join`, `upper`, `isdigit`, `startswith`,
    `int(...)` and the `x or default` idiom on strings.

    Assumptions: `upper` and `isdigit` are the ASCII versions; `strip()` with no
    argument removes exactly the characters for which Python's `str.isspace`
    holds; `splitlines` breaks at each of Python's line-boundary characters. */
module Text {

  /** Python's `str.isspace()`: the characters a plain `strip()` removes. */
  predicate IsSpace(c: char) {
    || c == ' ' || '\t' <= c <= '\r' || '\U{1C}' <= c <= '\U{1F}'
    || c == '\U{85}' || c == '\U{A0}' || c == '\U{1680}' || '\U{2000}' <= c <= '\U{200A}'
    || c == '\U{2028}' || c == '\U{2029}' || c == '\U{202F}' || c == '\U{205F}' || c == '\U{3000}'
  }

  /** The characters at which Python's `str.splitlines()` ends a line. */
  predicate IsLineBreak(c: char) {
    || '\n' <= c <= '\r' || '\U{1C}' <= c <= '\U{1E}'
    || c == '\U{85}' || c == '\U{2028}' || c == '\U{2029}'
  }

  const Whitespace: set<char> := set c: char | IsSpace(c)

  /** The characters `int()` skips around a number: those of `IsSpace` except the
      four information separators U+001C..U+001F, which CPython's integer parser
      does not treat as blanks. */
  predicate IsIntSpace(c: char) {
    IsSpace(c) && !('\U{1C}' <= c <= '\U{1F}')
  }

  const IntWhitespace: set<char> := set c: char | IsIntSpace(c)

  const LineBreaks: set<char> := set c: char | IsLineBreak(c)

  predicate IsDigit(c: char) { '0' <= c <= '9' }

  /** No character of `s` belongs to `cs`. */
  predicate Avoids(s: string, cs: set<char>) {
    forall i :: 0 <= i < |s| ==> s[i] !in cs
  }

  /** Every character of `s` belongs to `cs`. */
  predicate Within(s: string, cs: set<char>) {
    forall i :: 0 <= i < |s| ==> s[i] in cs
  }

  /** `s` neither starts nor ends with a character of `cs`: `strip` leaves it alone. */
  predicate Trimmed(s: string, cs: set<char>) {
    s == [] || (s[0] !in cs && s[|s| - 1] !in cs)
  }

  /** Every string of `xs` is non-empty and trimmed of `cs`. */
  predicate AllTrimmed(xs: seq<string>, cs: set<char>) {
    forall i :: 0 <= i < |xs| ==> xs[i] != [] && Trimmed(xs[i], cs)
  }

  lemma AllTrimmedDrop(xs: seq<string>, cs: set<char>)
    requires xs != [] && AllTrimmed(xs, cs)
    ensures AllTrimmed(xs[1..], cs)
  {
    assert forall i :: 0 <= i < |xs| - 1 ==> xs[1..][i] == xs[i + 1];
  }

  lemma AvoidsConcat(a: string, b: string, cs: set<char>)
    requires Avoids(a, cs) && Avoids(b, cs)
    ensures Avoids(a + b, cs)
  {
    assert forall i :: |a| <= i < |a + b| ==> (a + b)[i] == b[i - |a|];
  }

  /** No string of `xs` is empty. */
  predicate NoneEmpty(xs: seq<string>) {
    forall i :: 0 <= i < |xs| ==> xs[i] != []
  }

  lemma AllTrimmedAppend(xs: seq<string>, ys: seq<string>, cs: set<char>)
    requires AllTrimmed(xs, cs) && AllTrimmed(ys, cs)
    ensures AllTrimmed(xs + ys, cs)
  {
  }

  // ---------------------------------------------------------------- strip

  function StripLeft(s: string, cs: set<char>): (r: string)
    ensures |r| <= |s|
    ensures r == [] || r[0] !in cs
  {
    if s != [] && s[0] in cs then StripLeft(s[1..], cs) else s
  }

  function StripRight(s: string, cs: set<char>): (r: string)
    ensures |r| <= |s|
    ensures r == [] || (r[0] == s[0] && r[|r| - 1] !in cs)
  {
    if s != [] && s[|s| - 1] in cs then StripRight(s[..|s| - 1], cs) else s
  }

  /** Python's `s.strip(chars)`: the longest middle part of `s` that neither
      starts nor ends with a character of `cs` (see StripPadded and StripEmptyIff
      for what is cut off). */
  function Strip(s: string, cs: set<char>): (r: string)
    ensures Trimmed(r, cs)
    ensures |r| <= |s|
  {
    StripRight(StripLeft(s, cs), cs)
  }

  lemma {:induction false} StripLeftWithin(x: string, t: string, cs: set<char>)
    requires Within(x, cs)
    ensures StripLeft(x + t, cs) == StripLeft(t, cs)
  {
    if x == [] {
      assert x + t == t;
    } else {
      assert (x + t)[1..] == x[1..] + t;
      StripLeftWithin(x[1..], t, cs);
    }
  }

  lemma {:induction false} StripRightWithin(t: string, y: string, cs: set<char>)
    requires Within(y, cs)
    ensures StripRight(t + y, cs) == StripRight(t, cs)
  {
    if y == [] {
      assert t + y == t;
    } else {
      assert (t + y)[..|t + y| - 1] == t + y[..|y| - 1];
      StripRightWithin(t, y[..|y| - 1], cs);
    }
  }

  /** Stripping removes exactly a padding drawn from `cs`: `strip` of a trimmed
      text padded on both sides with characters of `cs` gives the text back. */
  lemma StripPadded(x: string, s: string, y: string, cs: set<char>)
    requires Within(x, cs) && Within(y, cs) && Trimmed(s, cs)
    ensures Strip(x + s + y, cs) == s
  {
    assert x + s + y == x + (s + y);
    StripLeftWithin(x, s + y, cs);
    if s == [] {
      assert s + y == y;
      assert StripLeft(y, cs) == [] by { StripLeftWithin(y, [], cs); assert y + [] == y; }
      assert StripLeft(x + s + y, cs) == [];
      assert StripRight([], cs) == [];
    } else {
      assert StripLeft(s + y, cs) == s + y;
      StripRightWithin(s, y, cs);
    }
  }

  /** `strip` leaves a trimmed text unchanged (it is idempotent). */
  lemma StripTrimmed(s: string, cs: set<char>)
    requires Trimmed(s, cs)
    ensures Strip(s, cs) == s
  {
    StripPadded([], s, [], cs);
    assert [] + s + [] == s;
  }

  lemma {:induction false} StripLeftEmpty(s: string, cs: set<char>)
    ensures StripLeft(s, cs) == [] <==> Within(s, cs)
  {
    if s != [] {
      StripLeftEmpty(s[1..], cs);
      assert Within(s, cs) <==> s[0] in cs && Within(s[1..], cs) by {
        assert forall i :: 1 <= i < |s| ==> s[i] == s[1..][i - 1];
      }
    }
  }

  lemma {:induction false} StripRightEmpty(s: string, cs: set<char>)
    ensures StripRight(s, cs) == [] <==> Within(s, cs)
  {
    if s != [] {
      var front := s[..|s| - 1];
      StripRightEmpty(front, cs);
      assert Within(s, cs) <==> s[|s| - 1] in cs && Within(front, cs) by {
        assert forall i :: 0 <= i < |s| - 1 ==> s[i] == front[i];
      }
    }
  }

  /** `strip` yields the empty string exactly when every character is stripped. */
  lemma StripEmptyIff(s: string, cs: set<char>)
    ensures Strip(s, cs) == [] <==> Within(s, cs)
  {
    StripLeftEmpty(s, cs);
    StripRightEmpty(StripLeft(s, cs), cs);
  }

  // ---------------------------------------------------------------- split and join

  /** Python's `s.split(sep)` generalised to a set of one-character separators:
      the pieces between separators, always at least one. */
  function SplitOn(s: string, seps: set<char>): (parts: seq<string>)
    ensures |parts| >= 1
    ensures forall i :: 0 <= i < |parts| ==> Avoids(parts[i], seps)
  {
    if s == [] then [[]]
    else
      var rest := SplitOn(s[1..], seps);
      if s[0] in seps then [[]] + rest
      else [[s[0]] + rest[0]] + rest[1..]
  }

  /** The number of characters in all of `parts` together. */
  function TotalLength(parts: seq<string>): nat {
    if parts == [] then 0 else |parts[0]| + TotalLength(parts[1..])
  }

  /** Python's `sep.join(parts)`: every part, in order, with one `sep` between
      each two neighbours (see SplitJoin for the inverse). */
  function JoinWith(parts: seq<string>, sep: string): (r: string)
    ensures |parts| >= 1 ==> |r| == TotalLength(parts) + (|parts| - 1) * |sep|
    ensures |parts| >= 1 ==> r[..|parts[0]|] == parts[0]
  {
    if |parts| == 0 then []
    else if |parts| == 1 then parts[0]
    else parts[0] + sep + JoinWith(parts[1..], sep)
  }

  lemma {:induction false} SplitAvoiding(p: string, seps: set<char>)
    requires Avoids(p, seps)
    ensures SplitOn(p, seps) == [p]
  {
    if p != [] {
      SplitAvoiding(p[1..], seps);
      assert [p[0]] + p[1..] == p;
    }
  }

  lemma {:induction false} SplitAtSeparator(p: string, c: char, rest: string, seps: set<char>)
    requires Avoids(p, seps) && c in seps
    ensures SplitOn(p + [c] + rest, seps) == [p] + SplitOn(rest, seps)
  {
    if p == [] {
      assert ([] + [c] + rest)[1..] == rest;
    } else {
      assert (p + [c] + rest)[1..] == p[1..] + [c] + rest;
      SplitAtSeparator(p[1..], c, rest, seps);
      assert [p[0]] + p[1..] == p;
    }
  }

  /** A separator anywhere cuts the string in two: the pieces before it, then
      the pieces after it. */
  lemma {:induction false} SplitOnSeparator(a: string, c: char, b: string, seps: set<char>)
    requires c in seps
    ensures SplitOn(a + [c] + b, seps) == SplitOn(a, seps) + SplitOn(b, seps)
  {
    var s := a + [c] + b;
    if a == [] {
      assert s[0] == c && s[1..] == b;
    } else {
      assert s[0] == a[0] && s[1..] == a[1..] + [c] + b;
      SplitOnSeparator(a[1..], c, b, seps);
      var front := SplitOn(a[1..], seps);
      var back := SplitOn(b, seps);
      if a[0] !in seps {
        ConcatFirstRest(front, back);
      }
    }
  }

  lemma ConcatFirstRest<T>(xs: seq<T>, ys: seq<T>)
    requires xs != []
    ensures (xs + ys)[0] == xs[0] && (xs + ys)[1..] == xs[1..] + ys
  {
  }

  /** Splitting undoes joining when no piece holds a separator. */
  lemma {:induction false} SplitJoin(parts: seq<string>, c: char, seps: set<char>)
    requires |parts| >= 1 && c in seps
    requires forall i :: 0 <= i < |parts| ==> Avoids(parts[i], seps)
    ensures SplitOn(JoinWith(parts, [c]), seps) == parts
  {
    if |parts| == 1 {
      SplitAvoiding(parts[0], seps);
    } else {
      SplitJoin(parts[1..], c, seps);
      SplitAtSeparator(parts[0], c, JoinWith(parts[1..], [c]), seps);
      assert [parts[0]] + parts[1..] == parts;
    }
  }

  /** The first character of a join of non-empty parts is that of the first part,
      its last that of the last part. */
  lemma {:induction false} JoinEnds(parts: seq<string>, sep: string)
    requires |parts| >= 1
    requires forall i :: 0 <= i < |parts| ==> parts[i] != []
    ensures var j := JoinWith(parts, sep);
            |j| >= 1 && j[0] == parts[0][0] && j[|j| - 1] == parts[|parts| - 1][|parts[|parts| - 1]| - 1]
  {
    if |parts| > 1 {
      JoinEnds(parts[1..], sep);
    }
  }

  lemma {:induction false} JoinAvoids(parts: seq<string>, sep: string, cs: set<char>)
    requires Avoids(sep, cs)
    requires forall i :: 0 <= i < |parts| ==> Avoids(parts[i], cs)
    ensures Avoids(JoinWith(parts, sep), cs)
  {
    if |parts| > 1 {
      JoinAvoids(parts[1..], sep, cs);
    }
  }

  /** Each string with a space in front. */
  function Spaced(parts: seq<string>): (r: seq<string>)
    ensures |r| == |parts| && forall i :: 0 <= i < |r| ==> r[i] == " " + parts[i]
  {
    if parts == [] then [] else [" " + parts[0]] + Spaced(parts[1..])
  }

  lemma JoinHeadPrefix(x: string, a: string, rest: seq<string>, sep: string)
    ensures JoinWith([x + a] + rest, sep) == x + JoinWith([a] + rest, sep)
  {
    if rest != [] {
      assert ([x + a] + rest)[1..] == rest;
      assert ([a] + rest)[1..] == rest;
      assert x + a + sep + JoinWith(rest, sep) == x + (a + sep + JoinWith(rest, sep));
    }
  }

  /** Joining with ", " is joining with "," after putting a space in front of every
      part but the first. */
  lemma {:induction false} JoinCommaSpace(parts: seq<string>)
    requires parts != []
    ensures JoinWith(parts, ", ") == JoinWith([parts[0]] + Spaced(parts[1..]), ",")
  {
    if |parts| > 1 {
      var tail := parts[1..];
      JoinCommaSpace(tail);
      assert tail[1..] == parts[2..];
      assert Spaced(tail) == [" " + tail[0]] + Spaced(tail[1..]);
      JoinHeadPrefix(" ", tail[0], Spaced(tail[1..]), ",");
      assert ([parts[0]] + Spaced(tail))[1..] == Spaced(tail);
      assert parts[0] + ", " + JoinWith(tail, ", ") == parts[0] + "," + JoinWith(Spaced(tail), ",");
    }
  }

  /** When every piece strips to a non-empty string, the comprehension keeps them all. */
  lemma {:induction false} NonBlankStrips(pieces: seq<string>, out: seq<string>, cs: set<char>)
    requires |pieces| == |out|
    requires forall i :: 0 <= i < |pieces| ==> Strip(pieces[i], cs) == out[i] && out[i] != []
    ensures NonBlank(pieces, cs) == out
  {
    if pieces != [] {
      assert forall i :: 0 <= i < |pieces| - 1 ==> pieces[1..][i] == pieces[i + 1] && out[1..][i] == out[i + 1];
      NonBlankStrips(pieces[1..], out[1..], cs);
      assert [out[0]] + out[1..] == out;
    }
  }

  /** The `[s.strip() for s in pieces if s.strip()]` comprehension, with `cs` the
      characters `strip` removes (Whitespace for a plain `strip()`). */
  function NonBlank(pieces: seq<string>, cs: set<char>): (r: seq<string>)
    ensures |r| <= |pieces|
    ensures AllTrimmed(r, cs)
  {
    if pieces == [] then []
    else
      var s := Strip(pieces[0], cs);
      var rest := NonBlank(pieces[1..], cs);
      if s == [] then rest else AllTrimmedAppend([s], rest, cs); [s] + rest
  }

  /** Already trimmed, non-blank pieces pass through the comprehension unchanged. */
  lemma {:induction false} NonBlankKeeps(pieces: seq<string>, cs: set<char>)
    requires AllTrimmed(pieces, cs)
    ensures NonBlank(pieces, cs) == pieces
  {
    if pieces != [] {
      StripTrimmed(pieces[0], cs);
      AllTrimmedDrop(pieces, cs);
      NonBlankKeeps(pieces[1..], cs);
      assert [pieces[0]] + pieces[1..] == pieces;
    }
  }

  /** The comprehension works piece by piece: the pieces of `a` come out first,
      in order, then those of `b`. */
  lemma {:induction false} NonBlankAppend(a: seq<string>, b: seq<string>, cs: set<char>)
    ensures NonBlank(a + b, cs) == NonBlank(a, cs) + NonBlank(b, cs)
  {
    if a == [] {
      assert a + b == b;
    } else {
      assert (a + b)[0] == a[0];
      assert (a + b)[1..] == a[1..] + b;
      NonBlankAppend(a[1..], b, cs);
    }
  }

  /** One piece: dropped exactly when it is blank, otherwise kept stripped. */
  lemma NonBlankOne(p: string, cs: set<char>)
    ensures NonBlank([p], cs) == if Within(p, cs) then [] else [Strip(p, cs)]
  {
    StripEmptyIff(p, cs);
    assert [p][1..] == [];
  }

  /** Every string of `parts` is made of characters of `cs` only. */
  predicate AllWithin(parts: seq<string>, cs: set<char>) {
    forall i :: 0 <= i < |parts| ==> Within(parts[i], cs)
  }

  /** The comprehension yields nothing exactly when every piece is blank. */
  lemma {:induction false} NonBlankEmptyIff(pieces: seq<string>, cs: set<char>)
    ensures NonBlank(pieces, cs) == [] <==> AllWithin(pieces, cs)
  {
    if pieces != [] {
      StripEmptyIff(pieces[0], cs);
      NonBlankEmptyIff(pieces[1..], cs);
      assert forall i :: 1 <= i < |pieces| ==> pieces[i] == pieces[1..][i - 1];
    }
  }

  lemma WithinCons(x: char, t: string, cs: set<char>)
    ensures Within([x] + t, cs) <==> x in cs && Within(t, cs)
  {
    var s := [x] + t;
    assert s[0] == x && s[1..] == t;
    assert forall i :: 1 <= i < |s| ==> s[i] == s[1..][i - 1];
  }

  lemma AllWithinCons(p: string, parts: seq<string>, cs: set<char>)
    ensures AllWithin([p] + parts, cs) <==> Within(p, cs) && AllWithin(parts, cs)
  {
    var ps := [p] + parts;
    assert ps[0] == p && ps[1..] == parts;
    assert forall i :: 1 <= i < |ps| ==> ps[i] == ps[1..][i - 1];
  }

  /** The pieces between separators are all drawn from `cs` exactly when the
      whole string is drawn from `cs` and the separators. */
  lemma {:induction false} SplitOnWithin(s: string, seps: set<char>, cs: set<char>)
    ensures AllWithin(SplitOn(s, seps), cs) <==> Within(s, cs + seps)
  {
    if s != [] {
      SplitOnWithin(s[1..], seps, cs);
      var rest := SplitOn(s[1..], seps);
      assert [s[0]] + s[1..] == s;
      WithinCons(s[0], s[1..], cs + seps);
      if s[0] in seps {
        AllWithinCons([], rest, cs);
      } else {
        assert [rest[0]] + rest[1..] == rest;
        AllWithinCons(rest[0], rest[1..], cs);
        AllWithinCons([s[0]] + rest[0], rest[1..], cs);
        WithinCons(s[0], rest[0], cs);
      }
    }
  }

  /** Splitting and dropping blank pieces yields nothing exactly when the
      string holds only blanks and separators. */
  lemma NonBlankSplitEmptyIff(s: string, seps: set<char>, cs: set<char>)
    ensures NonBlank(SplitOn(s, seps), cs) == [] <==> Within(s, cs + seps)
  {
    NonBlankEmptyIff(SplitOn(s, seps), cs);
    SplitOnWithin(s, seps, cs);
  }

  /** `[l.strip() for l in text.splitlines() if l.strip()]`. Breaking at every
      line-boundary character on its own (so "\r\n" gives an extra empty piece,
      and a final break a trailing one) only adds blank pieces, which this
      comprehension drops. */
  function ContentLines(text: string): (lines: seq<string>)
    ensures AllTrimmed(lines, Whitespace)
  {
    NonBlank(SplitOn(text, LineBreaks), Whitespace)
  }

  /** Text made by joining non-blank, trimmed lines with "\n" splits back into
      exactly those lines. */
  lemma ContentLinesOfJoin(lines: seq<string>)
    requires AllTrimmed(lines, Whitespace)
    requires forall i :: 0 <= i < |lines| ==> Avoids(lines[i], LineBreaks)
    ensures ContentLines(JoinWith(lines, "\n")) == lines
  {
    if lines == [] {
      assert SplitOn([], LineBreaks) == [[]];
    } else {
      SplitJoin(lines, '\n', LineBreaks);
      NonBlankKeeps(lines, Whitespace);
    }
  }

  /** A line break cuts the text in two: the content lines before it, in order,
      then those after it. */
  lemma ContentLinesAtBreak(a: string, c: char, b: string)
    requires c in LineBreaks
    ensures ContentLines(a + [c] + b) == ContentLines(a) + ContentLines(b)
  {
    SplitOnSeparator(a, c, b, LineBreaks);
    NonBlankAppend(SplitOn(a, LineBreaks), SplitOn(b, LineBreaks), Whitespace);
  }

  /** A text without a line break is one content line, stripped, unless it is blank. */
  lemma ContentLinesOfLine(p: string)
    requires Avoids(p, LineBreaks)
    ensures ContentLines(p) == if Within(p, Whitespace) then [] else [Strip(p, Whitespace)]
  {
    SplitAvoiding(p, LineBreaks);
    NonBlankOne(p, Whitespace);
  }

  /** A text has no content line exactly when it is made of blanks and line breaks. */
  lemma ContentLinesEmptyIff(text: string)
    ensures ContentLines(text) == [] <==> Within(text, Whitespace + LineBreaks)
  {
    NonBlankSplitEmptyIff(text, LineBreaks, Whitespace);
  }

  /** No string of `parts` holds a character of `xs`. */
  predicate AllAvoid(parts: seq<string>, xs: set<char>) {
    forall i :: 0 <= i < |parts| ==> Avoids(parts[i], xs)
  }

  /** Splitting, stripping and dropping blank pieces never introduce a character. */
  lemma ContentLinesAvoid(text: string, xs: set<char>)
    requires Avoids(text, xs)
    ensures AllAvoid(ContentLines(text), xs)
  {
    SplitOnAvoid(text, LineBreaks, xs);
    NonBlankAvoid(SplitOn(text, LineBreaks), Whitespace, xs);
  }

  lemma {:induction false} SplitOnAvoid(s: string, seps: set<char>, xs: set<char>)
    requires Avoids(s, xs)
    ensures AllAvoid(SplitOn(s, seps), xs)
  {
    if s != [] {
      assert Avoids(s[1..], xs);
      SplitOnAvoid(s[1..], seps, xs);
      var rest := SplitOn(s[1..], seps);
      if s[0] !in seps {
        AvoidsConcat([s[0]], rest[0], xs);
        var parts := SplitOn(s, seps);
        assert forall i :: 1 <= i < |parts| ==> parts[i] == rest[i];
      }
    }
  }

  lemma {:induction false} StripLeftAvoid(s: string, cs: set<char>, xs: set<char>)
    requires Avoids(s, xs)
    ensures Avoids(StripLeft(s, cs), xs)
  {
    if s != [] && s[0] in cs {
      assert forall i :: 0 <= i < |s| - 1 ==> s[1..][i] == s[i + 1];
      StripLeftAvoid(s[1..], cs, xs);
    }
  }

  lemma {:induction false} StripRightAvoid(s: string, cs: set<char>, xs: set<char>)
    requires Avoids(s, xs)
    ensures Avoids(StripRight(s, cs), xs)
  {
    if s != [] && s[|s| - 1] in cs {
      assert forall i :: 0 <= i < |s| - 1 ==> s[..|s| - 1][i] == s[i];
      StripRightAvoid(s[..|s| - 1], cs, xs);
    }
  }

  lemma StripAvoid(s: string, cs: set<char>, xs: set<char>)
    requires Avoids(s, xs)
    ensures Avoids(Strip(s, cs), xs)
  {
    StripLeftAvoid(s, cs, xs);
    StripRightAvoid(StripLeft(s, cs), cs, xs);
  }

  lemma {:induction false} NonBlankAvoid(pieces: seq<string>, cs: set<char>, xs: set<char>)
    requires AllAvoid(pieces, xs)
    ensures AllAvoid(NonBlank(pieces, cs), xs)
  {
    if pieces != [] {
      AllAvoidDrop(pieces, xs);
      NonBlankAvoid(pieces[1..], cs, xs);
      StripAvoid(pieces[0], cs, xs);
      AllAvoidCons(Strip(pieces[0], cs), NonBlank(pieces[1..], cs), xs);
    }
  }

  lemma AllAvoidDrop(parts: seq<string>, xs: set<char>)
    requires parts != [] && AllAvoid(parts, xs)
    ensures AllAvoid(parts[1..], xs)
  {
    assert forall i :: 0 <= i < |parts| - 1 ==> parts[1..][i] == parts[i + 1];
  }

  lemma AllAvoidAppend(a: seq<string>, b: seq<string>, xs: set<char>)
    requires AllAvoid(a, xs) && AllAvoid(b, xs)
    ensures AllAvoid(a + b, xs)
  {
    assert forall i :: |a| <= i < |a| + |b| ==> (a + b)[i] == b[i - |a|];
  }

  lemma AllAvoidCons(s: string, rest: seq<string>, xs: set<char>)
    requires Avoids(s, xs) && AllAvoid(rest, xs)
    ensures AllAvoid([s] + rest, xs)
  {
    assert forall i :: 1 <= i < |rest| + 1 ==> ([s] + rest)[i] == rest[i - 1];
  }

  // ---------------------------------------------------------------- searching

  /** The index of the first occurrence of `c`, as `str.index` finds it. */
  function IndexOf(s: string, c: char): (i: nat)
    requires c in s
    ensures i < |s| && s[i] == c && c !in s[..i]
  {
    if s[0] == c then 0 else IndexOf(s[1..], c) + 1
  }

  /** `s.split(c, 1)[1]` when `c` occurs in `s`: the text after its first occurrence. */
  function AfterFirst(s: string, c: char): (r: string)
    requires c in s
    ensures |r| < |s| && r == s[|s| - |r|..] && s[|s| - |r| - 1] == c
    ensures c !in s[..|s| - |r| - 1]
  {
    s[IndexOf(s, c) + 1..]
  }

  lemma AfterFirstOfPrefix(p: string, c: char, rest: string)
    requires c !in p
    ensures c in p + [c] + rest && AfterFirst(p + [c] + rest, c) == rest
  {
    var s := p + [c] + rest;
    assert s[|p|] == c;
    var i := IndexOf(s, c);
    if i < |p| {
      assert false;
    } else if i > |p| {
      assert false;
    }
  }

  predicate OccursAt(s: string, part: string, k: nat) {
    k + |part| <= |s| && s[k..k + |part|] == part
  }

  /** `part in s` for strings: `part` occurs in `s` as a contiguous piece. */
  ghost predicate Mentions(s: string, part: string) {
    exists k: nat :: OccursAt(s, part, k)
  }

  lemma MentionsIn(pre: string, part: string, post: string)
    ensures Mentions(pre + part + post, part) && Mentions(pre + part, part)
  {
    assert OccursAt(pre + part + post, part, |pre|) by {
      assert (pre + part + post)[|pre|..|pre| + |part|] == part;
    }
    assert OccursAt(pre + part, part, |pre|) by {
      assert (pre + part)[|pre|..|pre| + |part|] == part;
    }
  }

  lemma MentionsStart(part: string, post: string)
    ensures Mentions(part + post, part)
  {
    assert OccursAt(part + post, part, 0) by {
      assert (part + post)[..|part|] == part;
    }
  }

  /** Text added at the end keeps what was mentioned. */
  lemma MentionsExtend(s: string, part: string, post: string)
    requires Mentions(s, part)
    ensures Mentions(s + post, part)
  {
    var k: nat :| OccursAt(s, part, k);
    assert OccursAt(s + post, part, k) by {
      assert (s + post)[k..k + |part|] == s[k..k + |part|];
    }
  }

  /** `s.startswith(prefix)`, compared character by character. */
  predicate StartsWith(s: string, prefix: string) {
    prefix == [] || (s != [] && s[0] == prefix[0] && StartsWith(s[1..], prefix[1..]))
  }

  lemma {:induction false} StartsWithSlice(s: string, prefix: string)
    ensures StartsWith(s, prefix) <==> |prefix| <= |s| && s[..|prefix|] == prefix
  {
    if prefix != [] && s != [] {
      StartsWithSlice(s[1..], prefix[1..]);
      if |prefix| <= |s| {
        assert s[..|prefix|] == [s[0]] + s[1..][..|prefix| - 1];
        assert prefix == [prefix[0]] + prefix[1..];
      }
    }
  }

  /** `str.upper()` on ASCII letters; other characters are kept. */
  function UpperChar(c: char): char {
    if 'a' <= c <= 'z' then (c as int - 32) as char else c
  }

  function Upper(s: string): (r: string)
    ensures |r| == |s|
    ensures forall i :: 0 <= i < |s| ==> r[i] == UpperChar(s[i])
  {
    if s == [] then [] else [UpperChar(s[0])] + Upper(s[1..])
  }

  lemma {:induction false} UpperAppend(a: string, b: string)
    ensures Upper(a + b) == Upper(a) + Upper(b)
  {
    if a != [] {
      assert (a + b)[1..] == a[1..] + b;
      UpperAppend(a[1..], b);
    } else {
      assert a + b == b;
    }
  }

  lemma {:induction false} StartsWithAppend(prefix: string, rest: string)
    ensures StartsWith(prefix + rest, prefix)
  {
    if prefix != [] {
      assert (prefix + rest)[1..] == prefix[1..] + rest;
      StartsWithAppend(prefix[1..], rest);
    }
  }

  lemma StartsWithMismatch(s: string, prefix: string, k: nat)
    requires k < |s| && k < |prefix| && s[k] != prefix[k]
    ensures !StartsWith(s, prefix)
  {
    StartsWithSlice(s, prefix);
  }

  /** Upper-casing text with no lower-case letter changes nothing. */
  lemma {:induction false} UpperOfUpper(s: string)
    requires forall i :: 0 <= i < |s| ==> !('a' <= s[i] <= 'z')
    ensures Upper(s) == s
  {
    if s != [] {
      UpperOfUpper(s[1..]);
      assert [s[0]] + s[1..] == s;
    }
  }

  /** Python's `s or default` on strings. */
  function OrElse(s: string, default: string): (r: string)
    ensures r == (if s == [] then default else s)
    ensures default != [] ==> r != []
  {
    if s == [] then default else s
  }

  lemma FrontLast<T>(s: seq<T>)
    requires s != []
    ensures s[..|s| - 1] + [s[|s| - 1]] == s
  {
  }

  lemma AppendFrontLast<T>(a: seq<T>, s: seq<T>)
    requires s != []
    ensures a + s[..|s| - 1] + [s[|s| - 1]] == a + s
  {
    FrontLast(s);
    assert a + s[..|s| - 1] + [s[|s| - 1]] == a + (s[..|s| - 1] + [s[|s| - 1]]);
  }

  lemma FirstRest<T>(s: seq<T>)
    requires s != []
    ensures s == [s[0]] + s[1..]
  {
  }

  lemma AppendFirstRest<T>(a: seq<T>, s: seq<T>)
    requires s != []
    ensures a + [s[0]] + s[1..] == a + s
  {
    assert s == [s[0]] + s[1..];
  }

  /** Python's `s[:n]`. */
  function Take<T>(s: seq<T>, n: nat): (r: seq<T>)
    ensures |r| <= n && |r| <= |s|
    ensures |s| <= n ==> r == s
    ensures |s| > n ==> |r| == n
    ensures r == s[..|r|]
  {
    if |s| <= n then s else s[..n]
  }

  /** The defined results of `f` over `xs`, in order: a loop that appends `y` for
      every element whose `f` is `Some(y)`. */
  function FilterMap<T, U>(xs: seq<T>, f: T -> Option<U>): (r: seq<U>)
    ensures |r| <= |xs|
  {
    if xs == [] then []
    else
      var prev := FilterMap(xs[..|xs| - 1], f);
      match f(xs[|xs| - 1])
      case Some(y) => prev + [y]
      case None => prev
  }

  /** Elements are looked at one at a time: the results over two blocks are those
      of the first block followed by those of the second. */
  lemma {:induction false} FilterMapAppend<T, U>(xs: seq<T>, ys: seq<T>, f: T -> Option<U>)
    ensures FilterMap(xs + ys, f) == FilterMap(xs, f) + FilterMap(ys, f)
  {
    if ys == [] {
      assert xs + ys == xs;
    } else {
      var ys' := ys[..|ys| - 1];
      assert (xs + ys)[..|xs + ys| - 1] == xs + ys';
      assert (xs + ys)[|xs + ys| - 1] == ys[|ys| - 1];
      FilterMapAppend(xs, ys', f);
    }
  }

  /** When `f` is defined on every element, nothing is dropped and nothing moves. */
  lemma {:induction false} FilterMapEach<T, U>(xs: seq<T>, ys: seq<U>, f: T -> Option<U>)
    requires |xs| == |ys|
    requires forall i :: 0 <= i < |xs| ==> f(xs[i]) == Some(ys[i])
    ensures FilterMap(xs, f) == ys
  {
    if xs != [] {
      var n := |xs|;
      var xs', ys' := xs[..n - 1], ys[..n - 1];
      assert forall i :: 0 <= i < |xs'| ==> xs'[i] == xs[i] && ys'[i] == ys[i];
      FilterMapEach(xs', ys', f);
      FrontLast(ys);
    }
  }

  /** Elements on which `f` is undefined contribute nothing. */
  lemma {:induction false} FilterMapNone<T, U>(xs: seq<T>, f: T -> Option<U>)
    requires forall i :: 0 <= i < |xs| ==> f(xs[i]).None?
    ensures FilterMap(xs, f) == []
  {
    if xs != [] {
      FilterMapNone(xs[..|xs| - 1], f);
    }
  }

  // ---------------------------------------------------------------- integers

  function DigitChar(d: nat): (c: char)
    requires d < 10
    ensures IsDigit(c)
  {
    ('0' as int + d) as char
  }

  /** Python's `str(n)` for a natural number. */
  function DecimalString(n: nat): (s: string)
    ensures s != [] && forall i :: 0 <= i < |s| ==> IsDigit(s[i])
  {
    if n < 10 then [DigitChar(n)] else DecimalString(n / 10) + [DigitChar(n % 10)]
  }

  /** The value of a run of ASCII digits and underscores, the underscores ignored. */
  function DigitsValue(s: string): nat
    requires forall i :: 0 <= i < |s| ==> IsDigit(s[i]) || s[i] == '_'
  {
    if s == [] then 0
    else if s[|s| - 1] == '_' then DigitsValue(s[..|s| - 1])
    else
      assert IsDigit(s[|s| - 1]);
      DigitsValue(s[..|s| - 1]) * 10 + (s[|s| - 1] as int - '0' as int)
  }

  /** What Python's `int()` accepts as the digits of a decimal literal: ASCII digits,
      with single underscores allowed between two digits. */
  predicate DecimalDigits(s: string) {
    && s != []
    && IsDigit(s[0]) && IsDigit(s[|s| - 1])
    && (forall i :: 0 <= i < |s| ==> IsDigit(s[i]) || s[i] == '_')
    && (forall i :: 0 <= i < |s| - 1 ==> s[i] == '_' ==> s[i + 1] != '_')
  }

  /** The most digits Python converts between a decimal string and an `int`
      (the default of `sys.get_int_max_str_digits()`); both `int(s)` and `str(n)`
      raise `ValueError` beyond it. */
  const MaxStrDigits: nat := 4300

  /** The number of digits of a literal: its characters other than `_`. */
  function DigitCount(s: string): (n: nat)
    ensures n <= |s|
  {
    if s == [] then 0 else (if s[0] == '_' then 0 else 1) + DigitCount(s[1..])
  }

  /** A string of digits only has as many digits as characters. */
  lemma {:induction false} DigitCountOfDigits(s: string)
    requires forall i :: 0 <= i < |s| ==> IsDigit(s[i])
    ensures DigitCount(s) == |s|
  {
    if s != [] {
      assert forall i :: 0 <= i < |s| - 1 ==> s[1..][i] == s[i + 1];
      DigitCountOfDigits(s[1..]);
    }
  }

  /** Python's `int(s)` for a string: surrounding blanks (`IntWhitespace`), an
      optional sign, then decimal digits, at most `MaxStrDigits` of them (leading
      zeros included); `None` where Python raises `ValueError`. */
  function ParseInt(s: string): (r: Option<int>)
    ensures r.Some? ==> Strip(s, IntWhitespace) != []
    ensures r.Some? && r.value < 0 ==> Strip(s, IntWhitespace)[0] == '-'
  {
    var t := Strip(s, IntWhitespace);
    var negative := t != [] && t[0] == '-';
    var body := if t != [] && (t[0] == '-' || t[0] == '+') then t[1..] else t;
    if DecimalDigits(body) && DigitCount(body) <= MaxStrDigits then
      var v: int := DigitsValue(body);
      Some(if negative then -v else v)
    else None
  }

  lemma DigitNotSpace(c: char)
    requires IsDigit(c)
    ensures c !in Whitespace && c !in IntWhitespace && c !in LineBreaks
  {
  }

  lemma {:induction false} DigitsValueOfDecimal(n: nat)
    ensures DigitsValue(DecimalString(n)) == n
  {
    if n >= 10 {
      var s := DecimalString(n);
      assert s[..|s| - 1] == DecimalString(n / 10);
      DigitsValueOfDecimal(n / 10);
    }
  }

  /** An information separator is not a blank for `int()`: text that starts
      with one never parses, even though `strip()` would remove the separator. */
  lemma ParseIntAfterSeparator(s: string)
    requires s != [] && '\U{1C}' <= s[0] <= '\U{1F}'
    ensures ParseInt(s) == None
    ensures s[0] in Whitespace && s[0] !in IntWhitespace
  {
    assert IsSpace(s[0]) && !IsIntSpace(s[0]);
    assert StripLeft(s, IntWhitespace) == s;
    StripRightEmpty(s, IntWhitespace);
    var t := Strip(s, IntWhitespace);
    assert t != [] && t[0] == s[0];
  }

  /** The same separator in front of any trimmed text, against a plain
      `strip()`: `strip()` gives the text back, `int()` refuses it. */
  lemma StripSeparatorNumber(c: char, t: string)
    requires '\U{1C}' <= c <= '\U{1F}' && t != [] && Trimmed(t, Whitespace)
    ensures Strip([c] + t, Whitespace) == t
    ensures ParseInt([c] + t) == None
  {
    ParseIntAfterSeparator([c] + t);
    StripPadded([c], t, [], Whitespace);
    assert [c] + t + [] == [c] + t;
  }

  /** `int(str(n)) == n`, for every `n` that `str` converts (at most
      `MaxStrDigits` digits). */
  lemma ParseIntOfDecimal(n: nat)
    requires |DecimalString(n)| <= MaxStrDigits
    ensures ParseInt(DecimalString(n)) == Some(n)
  {
    var s := DecimalString(n);
    DigitNotSpace(s[0]);
    DigitNotSpace(s[|s| - 1]);
    StripTrimmed(s, IntWhitespace);
    DigitCountOfDigits(s);
    DigitsValueOfDecimal(n);
  }

  /** A literal with more than `MaxStrDigits` digits is refused, however many of
      them are leading zeros. */
  lemma ParseIntTooLong(s: string)
    requires DecimalDigits(s) && DigitCount(s) > MaxStrDigits
    ensures ParseInt(s) == None
  {
    DigitNotSpace(s[0]);
    DigitNotSpace(s[|s| - 1]);
    StripTrimmed(s, IntWhitespace);
  }

  datatype Option<+T> = None | Some(value: T)
}
